=== FILE: README.md ===
# Smart parking: reservation lifecycle model

A Dafny model of the core of a smart-parking system. Drivers pick a parking
location, choose a slot on its floor plan, choose a one-to-six-hour window and
book it. The backend keeps three kinds of document:

- a location, with a counter of its available slots;
- a parking slot, with a status and a back-reference to the reservation holding it;
- a reservation, with a generated booking code such as `SP-LXYZ12-AB3C`.

Four request handlers change these documents:

- create books a slot;
- extend adds hours;
- cancel frees the slot;
- delete removes a finished reservation.

A periodic sweep marks overdue active reservations `completed` and frees their
slots.

The database is modelled as three immutable maps from ids to documents
(`Schema.Db`). Each handler is a pure function from the database to
`Reply(outcome, db)`, where `db` is the database after the call. A handler that
fails part-way is modelled with the writes it made before failing. Mongoose
validation is modelled field by field:

- required fields;
- enumerations;
- `trim`;
- `uppercase`;
- defaults;
- the booking-code hook.

JavaScript strings are sequences of UTF-16 code units (`JsText`).

The model covers the following:

| module | what it covers |
|---|---|
| `Seed` | The seed script's slot generator: slot numbers, floors, prices and statuses that agree with the location's counter. It also covers the sample reservations. |
| `TimeSelector` | The booking page's duration picker. |
| `Countdown` | The dashboard countdown. |
| `ReservationWizard` | The five-step booking page that drives the create request. |

Two invariants are stated about the database (`Store`):

- **`Linked`**: every active reservation holds its slot. That means the slot is reserved, points back to the reservation, and lies in the reservation's location.
- **`CountersAgree`**: every location's `availableSlots` equals the number of its slots whose status is `available`.

Each handler and the sweep preserve both invariants, with two exceptions:

- create preserves them only when the request's location is the slot's own location, which the handler does not check;
- delete preserves them only because it leaves the slot alone, and the model shows the slot it leaves stranded.

Points worth noting about the code, all modelled as written:

- **Delete.** It allows deleting an active reservation only when its end time is strictly before now; at the end instant itself it refuses with 400. It deletes cancelled, completed and expired reservations whatever their end time.
- **Create, missing slot.** A slot that does not exist gets the same 400 ("not available") as a slot that is taken.
- **Create, no checks.** It checks neither the slot's location nor the price, and it decrements the counter without a floor, so the counter can go negative.
- **Extend.** It does not require the added hours to be positive.
- **Nothing sets `expired`.** The sweep sets `completed`. `expired` is only a value that delete accepts.

## Model

| member | source | states |
|---|---|---|
| ReservationRoutes.Create | backend/src/routes/reservations.js:11-67 | Refuses with 400 and no write when the slot is missing or not available. When the slot is free but the document fails validation or its booking code is already in use, answers 500 with no write. Succeeds exactly when the slot is free and the document validates with an unused code. On success it stores an active reservation carrying the request's fields with the plate upper-cased, the booking code generated from the clock and the random draw, and no check-in or check-out time; it reserves the slot pointing to it, decrements the requested location's counter, leaves that location's other fields as they were, and changes nothing else. |
| Lifecycle.CreateListsNewReservation | backend/src/routes/reservations.js:72-84 | After a successful create, the owner's list is the old list plus the new reservation, and every other user's list is unchanged. |
| Lifecycle.DeleteUnlists | backend/src/routes/reservations.js:72-84 | After a successful delete, every user's list is the old list without the deleted reservation. |
| Lifecycle.ListedIffViewable | backend/src/routes/reservations.js:72-110 | A reservation is on the requester's list exactly when viewing it succeeds. |
| ReservationRoutes.View | backend/src/routes/reservations.js:89-110 | Returns the stored reservation exactly when it exists and is owned by the requester. Otherwise 404 when it is absent and 403 when someone else owns it. |
| ReservationRoutes.Extend | backend/src/routes/reservations.js:115-154 | 404, 403, 400 for a non-active reservation and 400 beyond six hours, in that order, and 500 when the reservation passes those checks but its slot is missing; none of these writes. Succeeds exactly when owned, active, within six hours and the slot exists. On success only end time, duration and price change: end moves by the added hours, duration grows by them, price grows by them times the slot's rate. Slots and locations are untouched. |
| ReservationRoutes.Cancel | backend/src/routes/reservations.js:159-192 | 404, 403 and 400 (not active) with no write. For the owner of an active reservation whose slot is missing, answers 500 with the reservation already saved cancelled and nothing else changed. Succeeds exactly when owned, active and the slot exists; then the reservation becomes cancelled, its slot becomes available with no reservation, and the reservation's location counter grows by one, with that location's other fields and every other document unchanged. |
| ReservationRoutes.Delete | backend/src/routes/reservations.js:197-236 | 404, then 403. Succeeds exactly when owned and either cancelled, completed or expired, or active with end time strictly before now. For the owner of an active reservation whose end is now or later, answers 400 with no write, and a 400 arises only then. On success only that reservation is removed; slots and counters are untouched. |
| Lifecycle.CreatePreservesConsistent | backend/src/routes/reservations.js:25-49 | On a consistent database, a create whose location is the slot's own location keeps every active reservation holding its slot and every counter equal to its available-slot count, and no counter becomes negative. |
| Lifecycle.CreateWithForeignLocationBreaksCounters | backend/src/routes/reservations.js:30-49 | Whenever a create whose request names an existing location other than the slot's own succeeds, the counters no longer agree with the slots. |
| Lifecycle.CounterCanGoNegative | backend/src/routes/reservations.js:47-49 | A concrete request against a location whose counter is already 0 succeeds and leaves the counter at -1. |
| Lifecycle.CreateThenCancelRestores | backend/src/routes/reservations.js:175-185 | After a successful create, cancelling the new reservation as its owner succeeds. It restores every location counter and the slot's available status (the whole slot map when the slot had no stale back-reference) and leaves the reservation cancelled. |
| Lifecycle.CancelTwiceFails | backend/src/routes/reservations.js:171-173 | A second cancel of a cancelled reservation is refused with 400 and changes nothing. |
| Lifecycle.CancelPreservesConsistent | backend/src/routes/reservations.js:175-185 | On a consistent database cancel never hits the missing-slot 500, and it keeps both invariants. |
| Lifecycle.ExtendPreservesConsistent | backend/src/routes/reservations.js:136-143 | Extend keeps both invariants. |
| Lifecycle.ExtendKeepsPricing | backend/src/routes/reservations.js:136-142 | A reservation priced at duration times its slot's rate stays so priced after an extension. |
| Lifecycle.DeletePreservesConsistent | backend/src/routes/reservations.js:218-226 | Delete keeps both invariants. |
| Lifecycle.DeleteEndedActiveStrandsSlot | backend/src/routes/reservations.js:210-226 | Deleting an overdue active reservation leaves its slot reserved and pointing at the deleted id, with no active reservation on that slot. |
| Lifecycle.CreateKeepsLayout | backend/src/routes/reservations.js:43-45 | Create changes slots only in status and current reservation: the set of slots and each slot's location, number, floor, type and rate stay. |
| Lifecycle.CancelKeepsLayout | backend/src/routes/reservations.js:178-181 | Cancel changes slots only in status and current reservation. |
| Store.CounterPositiveWhenSlotFree | backend/src/routes/reservations.js:26-49 | Under the counter invariant, a location with an available slot has a counter of at least one, so booking that slot cannot drive it negative. |
| Store.ActiveSlotsDistinct | backend/src/models/ParkingSlot.js:34-38 | While every active reservation holds its slot, two distinct active reservations hold different slots. |
| Store.SameLayoutKeepsUniqueNumbers | backend/src/models/ParkingSlot.js:45 | Changes that keep the slot layout keep slot numbers unique within each location. |
| Store.AdjustAvailable | backend/src/routes/reservations.js:47-49 | The counter update: the named location's counter moves by the delta, an unknown id changes nothing, and other locations are untouched. |
| ExpirySweep.DueIffOwnerCanDelete | backend/src/utils/updateReservationStatus.js:10-13 | An active reservation is selected by the sweep's query exactly when its owner's delete at the same instant succeeds: both use a strictly earlier end. |
| ExpirySweep.DueGrowsWithTime | backend/src/utils/updateReservationStatus.js:10-13 | A reservation due at some instant is due at every later instant. |
| ExpirySweep.CompleteOnePreservesConsistent | backend/src/utils/updateReservationStatus.js:21-37 | One iteration on a consistent database, for an active reservation, keeps every active reservation holding its slot and every counter equal to its available-slot count. |
| ExpirySweep.CompleteEach | backend/src/utils/updateReservationStatus.js:21-40 | Processing a list of distinct reservations completes exactly those listed and leaves alone every slot that none of them names. |
| ExpirySweep.Sweep | backend/src/utils/updateReservationStatus.js:5-44 | Exactly the due reservations become completed, all others are unchanged, and none is due afterwards. |
| ExpirySweep.SweepIdempotent | backend/src/utils/updateReservationStatus.js:10-17 | After a sweep the query finds nothing, and a second sweep at the same instant changes nothing. |
| ExpirySweep.CompleteEachPreservesConsistent | backend/src/utils/updateReservationStatus.js:21-40 | Completing distinct active reservations one after another keeps both invariants. |
| ExpirySweep.SweepPreservesConsistent | backend/src/utils/updateReservationStatus.js:5-44 | A sweep keeps both invariants. |
| ExpirySweep.CompleteEachFreesSlot | backend/src/utils/updateReservationStatus.js:27-36 | On a consistent database each listed reservation's slot ends available with no reservation, whatever its position in the list. |
| ExpirySweep.SweepFreesDueSlots | backend/src/utils/updateReservationStatus.js:27-36 | On a consistent database the sweep frees the slot of every due reservation. |
| ExpirySweep.CompleteFreesSlotOfAnotherReservation | backend/src/utils/updateReservationStatus.js:27-31 | The slot check does not look at the back-reference. If the slot is reserved by another active reservation, completing this one frees it under that holder and breaks the holding invariant. |
| ReservationModel.StatusTextRoundTrip | backend/src/models/Reservation.js:40-44 | The four status strings and the four statuses correspond one to one. |
| ReservationModel.StatusOf | backend/src/models/Reservation.js:40-44 | An absent status defaults to active. A present one is accepted exactly when it is one of the four enumeration strings, and maps to that status. |
| ReservationModel.RandomPart | backend/src/models/Reservation.js:76 | The random part has at most four code units, exactly four when the random number's base-36 text has at least six, and no lower-case letters. |
| ReservationModel.AssignReservationId | backend/src/models/Reservation.js:73-80 | A non-empty code is kept. Otherwise the generated `SP-<timestamp>-<random>` code is assigned. The result is never empty. |
| ReservationModel.AssignReservationIdStable | backend/src/models/Reservation.js:74 | Running the hook again, at any later time and with any random draw, keeps the code it assigned. |
| ReservationModel.GeneratedCodeRoundTrip | backend/src/models/Reservation.js:75-77 | A generated code splits at its first dash after the prefix back into its timestamp and random parts. The timestamp part consists of upper-case base-36 digits that parse back to the clock value. |
| ReservationModel.NewReservation | backend/src/models/Reservation.js:3-80 | Validates exactly when every required field is present, the three contact strings are non-empty and the status, if given, is in the enumeration. A valid document has an upper-cased plate, defaults to active, keeps a given code or generates one, and has no check-in or check-out time. |
| ParkingSlotModel.StatusTextRoundTrip | backend/src/models/ParkingSlot.js:24-28 | The four slot status strings and statuses correspond one to one. |
| ParkingSlotModel.TypeTextRoundTrip | backend/src/models/ParkingSlot.js:19-23 | The five slot type strings and types correspond one to one. |
| ParkingSlotModel.NewSlot | backend/src/models/ParkingSlot.js:3-43 | Validates exactly when the location is given, the slot number is non-empty and a given type or status is in its enumeration. The stored location, number and reservation are the input's. Floor, type, status and price are the input's when given and otherwise 1, regular, available and 50, each on its own. |
| ParkingSlotModel.NewSlotStable | backend/src/models/ParkingSlot.js:3-43 | A slot with a non-empty number, written back as input field by field, validates and comes back unchanged. |
| ParkingSlotModel.NewSlotDefaults | backend/src/models/ParkingSlot.js:14-38 | With only location and number given, the slot is on floor 1, regular, available, at 50 per hour, with no reservation. |
| ParkingSlotModel.InsertSlot | backend/src/models/ParkingSlot.js:45 | An insert succeeds exactly when no slot of the same location has that number, and it keeps the numbers unique. |
| LocationModel.GeoTypeOf | backend/src/models/Location.js:19-24 | The geometry type is accepted exactly when absent or "Point". |
| LocationModel.NewLocation | backend/src/models/Location.js:3-62 | Validates exactly when name and area are non-blank after trimming, the address is non-empty and the geometry type is absent or Point. Name and area are stored trimmed, so their first and last code units are not white space, and the address is stored as given. The geometry is a Point. Each of total slots, available slots, floors, opening and closing time and the active flag is stored as given, or when absent takes its own default: 0, 0, 1, "00:00", "23:59" and true. |
| LocationModel.NewLocationDefaults | backend/src/models/Location.js:30-57 | With only name, address and area given, the counters are 0, there is one floor, the hours are 00:00-23:59 and the location is active. |
| LocationModel.NewLocationStable | backend/src/models/Location.js:5-18 | Validating a stored location again gives back the same location. |
| JsText.Trim | backend/src/models/Location.js:8 | The result is a contiguous part of the input with only white space cut from both ends, and it neither starts nor ends with white space. |
| JsText.TrimIdempotent | backend/src/models/Location.js:8 | Trimming twice is trimming once. |
| JsText.ToUpper | backend/src/models/Reservation.js:56 | Same length, each code unit mapped on its own, and no lower-case ASCII letters left. |
| JsText.ToUpperIdempotent | backend/src/models/Reservation.js:56 | Upper-casing twice is upper-casing once. |
| JsText.Substring | backend/src/models/Reservation.js:76 | Returns as many code units as lie between the two clamped positions, each the code unit of the string at the smaller position plus its offset. |
| JsText.SubstringSwapAndLength | backend/src/models/Reservation.js:76 | `substring` gives the same result with its arguments swapped, returns as many code units as lie between the clamped positions, and over the whole range returns the string. |
| JsText.UpperBase36RoundTrip | backend/src/models/Reservation.js:75 | The upper-cased base-36 text of a number contains only upper-case base-36 digits and parses back to the number. |
| JsText.DecimalRoundTrip | backend/src/seeders/seedData.js:175 | The decimal text of a number contains only digits and parses back to the number. |
| Arith.CeilDiv | backend/src/seeders/seedData.js:169 | `Math.ceil(a / b)` for a positive divisor: the least multiple count that covers a. |
| Seed.PriceFor | backend/src/seeders/seedData.js:187 | Electric slots cost 75, handicap slots 30, every other type 50, and no other price arises. |
| Seed.RowPosition | backend/src/seeders/seedData.js:175 | The number within a row, `(i % 10) \|\| 10`, is between 1 and 10. |
| Seed.RowDetermines | backend/src/seeders/seedData.js:175 | The row letter's index and the number within the row give back the slot index. |
| Seed.SlotNumberExamples | backend/src/seeders/seedData.js:175 | Slots 1, 10, 11 on floor 1 and slot 20 on floor 2 are numbered 1A1, 1A10, 1B1 and 2B10. |
| Seed.SlotNumberInjective | backend/src/seeders/seedData.js:175 | Two slot numbers are equal only for the same floor and index, while the row letter stays within one code unit. |
| Seed.SlotsPerFloor | backend/src/seeders/seedData.js:169 | A location with slots gets at least one slot per floor. |
| Seed.FloorsCoverTotal | backend/src/seeders/seedData.js:169-172 | The floors times the slots per floor cover every slot. |
| Seed.Place | backend/src/seeders/seedData.js:171-172 | The k-th generated slot lies on floor 1 or above, at an index within the floor, and the floors before it hold exactly the slots before it. |
| Seed.PlaceIsDivMod | backend/src/seeders/seedData.js:171-172 | The k-th slot's floor and index are the quotient and remainder of k by the slots per floor, plus one. |
| Seed.HeldStatus | backend/src/seeders/seedData.js:184 | The status drawn for a held slot is occupied or reserved, never available. |
| Seed.FillFloor | backend/src/seeders/seedData.js:172-196 | One floor's loop appends that floor's slots up to the total. Each slot is as expected, and the held count stays as many as the counter requires so far. |
| Seed.GenerateSlots | backend/src/seeders/seedData.js:167-198 | No slots without floors. Otherwise exactly max(0, total) slots, each as expected: its number, floor, type, rate and held-or-available status. Exactly min(count, total - available) of them are not available. |
| Seed.ExpectedSlotFloor | backend/src/seeders/seedData.js:171 | Every generated slot's floor lies between 1 and the location's floors. |
| Seed.GeneratedSlotValidates | backend/src/seeders/seedData.js:189-200 | Every generated slot, inserted with its location's id, passes the ParkingSlot schema and is stored with exactly the generated number, floor, type, status and rate and no reservation. |
| Seed.SeedCounterMatches | backend/src/seeders/seedData.js:178-185 | The generated slots agree with the location's counter exactly when the counter lies between 0 and the total. |
| Seed.GeneratedNumbersDistinct | backend/src/seeders/seedData.js:170-175 | Two different generated slots of a location get different slot numbers, so the unique index accepts the batch. |
| Seed.SampleReservationPriced | backend/src/seeders/seedData.js:212-230 | Each sample reservation validates, is active, lasts 1 to 4 hours starting i hours from now, and is priced at duration times the slot's rate. |
| TimeSelector.Durations | frontend/src/components/Parking/TimeSelector.jsx:14 | Six buttons, exactly the hours 1 to 6, in increasing order. |
| TimeSelector.TimeSelectionRoundTrip | frontend/src/components/Parking/TimeSelector.jsx:26-37 | The reported details give back what they were made from: the window's length in hours is the duration, it starts at the chosen start, and for a positive duration the total divided by it is the hourly rate. |
| TimeSelector.Mount | frontend/src/components/Parking/TimeSelector.jsx:5-41 | On mounting the picker shows one hour from the current hour and reports details that agree with it. |
| TimeSelector.ChangeDuration | frontend/src/components/Parking/TimeSelector.jsx:16-19 | A duration click keeps the start and reports details that agree with the new selection. |
| TimeSelector.ChangeStart | frontend/src/components/Parking/TimeSelector.jsx:21-24 | A start edit keeps the duration and reports details that agree with the new selection. |
| TimeSelector.RunKeepsAgreement | frontend/src/components/Parking/TimeSelector.jsx:14-37 | After any clicks and edits, the duration is one of 1..6 hours. The last report agrees with the shown selection and with the displayed total (line 89). |
| TimeSelector.ReportedDetailsPriced | frontend/src/components/Parking/TimeSelector.jsx:26-37 | A reservation stored from reported details is priced at duration times the rate, as the backend prices it. |
| Countdown.CalculateTimeLeft | frontend/src/components/Dashboard/ReservationCountdown.jsx:9-48 | "starts in" exactly before the start, "ends in" exactly from the start until before the end, "ended" otherwise. Hours are below 24 and minutes and seconds below 60. |
| Countdown.StartsInIsClock | frontend/src/components/Dashboard/ReservationCountdown.jsx:15-24 | Before the start, days, hours, minutes and seconds add back up to the whole seconds left. |
| Countdown.EndsInIsClockOfDayRemainder | frontend/src/components/Dashboard/ReservationCountdown.jsx:26-41 | While running, the fields add up to the whole seconds left modulo a day: whole days are dropped. |
| Countdown.EndsInWithinADay | frontend/src/components/Dashboard/ReservationCountdown.jsx:26-41 | For a reservation shorter than a day nothing is dropped. |
| Countdown.ClockUnique | frontend/src/components/Dashboard/ReservationCountdown.jsx:19-22 | A number of seconds has only one such clock reading. |
| Countdown.Render | frontend/src/components/Dashboard/ReservationCountdown.jsx:61-158 | Something is drawn exactly when the status is "active" and a state was calculated. The panel's kind is the state's, its hours, minutes and seconds are the state's, and the days box shows exactly when days are left, with the state's day count. |
| Countdown.DaysBoxWhenADayAway | frontend/src/components/Dashboard/ReservationCountdown.jsx:15-24 | Before an active reservation starts the "starts in" panel is drawn, and its days box appears exactly when the start is at least a day away. |
| Countdown.RenderOnlyActive | frontend/src/components/Dashboard/ReservationCountdown.jsx:61-63 | For a stored reservation the countdown is drawn exactly while its status is active. |
| ReservationWizard.Payload | frontend/src/pages/ReservationPage.jsx:48-58 | The request body exists exactly when location, slot, window and details are all chosen, and it copies each of them field by field. |
| ReservationWizard.EnterStep | frontend/src/pages/ReservationPage.jsx:91-111 | Entering step 3 mounts the duration picker afresh at one hour from the given clock, with a report that agrees with it at the chosen slot's rate. Any other step unmounts it and keeps the last report. The choices are kept. |
| ReservationWizard.Step | frontend/src/pages/ReservationPage.jsx:31-43 | The step stays within 1..5. It rises by one only through Next with the step's choice made, and from 4 only on a successful create. It falls by one only through Back between steps 2 and 4. |
| ReservationWizard.StepKeepsReady | frontend/src/pages/ReservationPage.jsx:71-89 | Every event keeps the page ready. Earlier choices are made, the mounted picker agrees with the report, the window is 1..6 hours priced at the slot's rate, and step 5 holds a reservation and complete details. |
| ReservationWizard.RunKeepsReady | frontend/src/pages/ReservationPage.jsx:14-111 | From a ready page, any run of events keeps it ready. |
| ReservationWizard.InitialReady | frontend/src/pages/ReservationPage.jsx:14-21 | The page as first shown is at step 1 and ready. |
| ReservationWizard.PayloadAtDetails | frontend/src/pages/ReservationPage.jsx:79-85 | At the details step with all three fields filled in, the request body exists. |
| ReservationWizard.BackThenNextAtSlotStep | frontend/src/pages/ReservationPage.jsx:31-43 | At the slot step, Back then Next gives back the same page. |
| ReservationWizard.BackFromDetailsResetsDuration | frontend/src/pages/ReservationPage.jsx:97-103 | Back from the details step and Next again returns to details with a one-hour window from the hour read on remounting. The duration picked before is lost. |
| ReservationWizard.WizardBookingPriced | frontend/src/pages/ReservationPage.jsx:45-62 | When the shown rate is the slot's stored rate and create succeeds, the stored reservation lasts 1..6 hours, is priced at that rate and names the chosen location and slot. |
| ReservationWizard.StaleSlotAfterLocationChange | frontend/src/pages/ReservationPage.jsx:71-76 | Going back and choosing another location keeps the old slot and enables Next, so the request can pair a location with another location's slot. |

## Left out

- Geographic search is left out: the nearby-location queries, haversine distance and the 2dsphere index. They are outside the reservation lifecycle.
- The coordinate values and the required coordinates array of a location are left out. `NewLocation` checks only the geometry type.
- MongoDB, Express, authentication middleware, `populate`, response shaping and the `createdAt`/`updatedAt` timestamps are I/O or presentation. Each handler is modelled as one atomic step, so concurrent requests and double-booking races are not modelled.
- The sweep's try/catch is left out: an exception thrown part-way is not modelled, because the model's writes cannot fail.
- `Date.now`, `new Date()` and `Math.random` become parameters:
  - the clock;
  - the random number's text (`randomText`);
  - the seed's type and status draws (`kindAt`, `heldAt`);
  - the sample duration draw.
- `randomizeSlotStatuses` (backend/src/routes/parking.js:8-30) is left out. The slot-listing route `GET /slots/:locationId` calls it (parking.js:51) to shuffle the statuses of plain copies of the slots before answering. It never saves them, so no stored document and neither invariant is affected; the route is outside the reservation handlers.
- `generateNearbyCoordinates` (backend/src/seeders/seedData.js:24-37) is left out. It is defined but never called, so the seed never uses it.
- The seed's users, and how the sample reservations pick them, are parameters. The sample reservations are stored without setting their slots' back-references, so the seeded database satisfies the counter invariant but not `Linked`.
- Seed.GeneratedNumbersDistinct: holds for at most 10 × (65536 − 65) slots per floor. Beyond that the row letter wraps around the 16-bit code unit range.
- Numbers are integers throughout:
  - non-integer hours, prices and counters are not modelled;
  - the countdown's floating-point divisions are modelled as integer division on whole milliseconds, which agrees with `Math.floor` for non-negative values.
- The countdown's progress percentage, the one-second timer, and locale and time-zone handling are left out. That includes `toISOString`, `setHours`, daylight saving and `datetime-local` parsing. The picker's start becomes a millisecond parameter, and the mount's "current hour" is a parameter.
- `toUpperCase` is modelled for ASCII letters only. Other scripts' case mappings are left out.
- UI rendering beyond what is shown (markup, styles, icons), the loading flag and the confirmation ticket are presentation and are left out.
- Reservation and slot `_id` allocation is a parameter (`newId`). The unique index on `reservationId` is modelled as "create fails when the code is in use".

=== FILE: arith.dfy ===
/** Integer facts shared by the seed layout and the countdown. */
module Arith {
  /** Math.ceil(a / b) for a positive divisor. */
  function CeilDiv(a: int, b: int): (c: int)
    requires b > 0
    ensures b * (c - 1) < a <= b * c
  {
    -((-a) / b)
  }

  /** Multiplying by a non-negative factor keeps order. */
  lemma MulMono(a: int, b: int, d: int)
    requires a <= b && d >= 0
    ensures a * d <= b * d
  {
    assert b * d - a * d == (b - a) * d;
  }

  /** Quotient and remainder of q * d + r are q and r when 0 <= r < d. */
  lemma DivModOf(q: int, d: int, r: int)
    requires d > 0 && 0 <= r < d
    ensures (q * d + r) / d == q && (q * d + r) % d == r
  {
    var n := q * d + r;
    var q', r' := n / d, n % d;
    assert q' * d + r' == q * d + r;
    assert (q' - q) * d == r - r';
    if q' > q {
      MulMono(1, q' - q, d);
    } else if q' < q {
      MulMono(1, q - q', d);
    }
  }
}

=== FILE: countdown.dfy ===
/**
 * The dashboard's reservation countdown: which of "starts in", "ends in"
 * and "ended" a reservation is in at a given instant, the split of the
 * remaining milliseconds into days, hours, minutes and seconds, and whether
 * anything is shown at all.
 */
module Countdown {
  import opened Wrappers
  import opened JsText
  import opened Schema
  import opened ReservationModel
  import opened Arith

  const SECOND_MS: int := 1000
  const MINUTE_MS: int := 60 * 1000
  const DAY_MS: int := 24 * 60 * 60 * 1000

  /** The three shapes of the countdown's state. */
  datatype TimeLeft =
    | StartsIn(days: int, hours: int, minutes: int, seconds: int)
    | EndsIn(hours: int, minutes: int, seconds: int)
    | Ended

  /**
   * A clock reading of a number of whole seconds: days, then hours below
   * 24, minutes below 60 and seconds below 60 that add back up to it.
   */
  predicate IsClock(secs: int, days: int, hours: int, minutes: int, seconds: int)
  {
    && 0 <= days
    && 0 <= hours < 24 && 0 <= minutes < 60 && 0 <= seconds < 60
    && days * 86400 + hours * 3600 + minutes * 60 + seconds == secs
  }

  /**
   * calculateTimeLeft at instant now for a reservation from start to end.
   * The fields are Math.floor of the quotients and remainders of the
   * positive difference, which for integer milliseconds are integer division
   * and remainder.
   */
  function CalculateTimeLeft(now: Ms, start: Ms, end: Ms): (t: TimeLeft)
    ensures t.StartsIn? <==> now < start
    ensures t.EndsIn? <==> start <= now < end
    ensures t.Ended? <==> start <= now && end <= now
    ensures t.StartsIn? ==> 0 <= t.days && 0 <= t.hours < 24 && 0 <= t.minutes < 60 && 0 <= t.seconds < 60
    ensures t.EndsIn? ==> 0 <= t.hours < 24 && 0 <= t.minutes < 60 && 0 <= t.seconds < 60
  {
    if now < start then
      var difference := start - now;
      StartsIn(difference / DAY_MS, (difference / HOUR_MS) % 24, (difference / MINUTE_MS) % 60, (difference / SECOND_MS) % 60)
    else if now >= start && now < end then
      var difference := end - now;
      EndsIn((difference / HOUR_MS) % 24, (difference / MINUTE_MS) % 60, (difference / SECOND_MS) % 60)
    else
      Ended
  }

  /** The clock fields of a number of seconds. */
  lemma SecondsClock(secs: int)
    requires secs >= 0
    ensures IsClock(secs, secs / 86400, (secs / 3600) % 24, (secs / 60) % 60, secs % 60)
  {
    var days, rest := secs / 86400, secs % 86400;
    var h, rest2 := rest / 3600, rest % 3600;
    var m, s := rest2 / 60, rest2 % 60;
    assert secs == (days * 24 + h) * 3600 + rest2;
    DivModOf(days * 24 + h, 3600, rest2);
    DivModOf(days, 24, h);
    assert secs == ((days * 24 + h) * 60 + m) * 60 + s;
    DivModOf((days * 24 + h) * 60 + m, 60, s);
    DivModOf(days * 24 + h, 60, m);
  }

  /** The fields computed from milliseconds are the clock fields of the whole seconds. */
  lemma MillisFields(d: int)
    requires d >= 0
    ensures d / DAY_MS == (d / SECOND_MS) / 86400
    ensures d / HOUR_MS == (d / SECOND_MS) / 3600
    ensures d / MINUTE_MS == (d / SECOND_MS) / 60
  {
  }

  /**
   * Before the start, the fields read the whole seconds left until the
   * start as a clock: days, hours, minutes and seconds that add back up to
   * them.
   */
  lemma StartsInIsClock(now: Ms, start: Ms, end: Ms)
    requires now < start
    ensures var t := CalculateTimeLeft(now, start, end);
      IsClock((start - now) / SECOND_MS, t.days, t.hours, t.minutes, t.seconds)
  {
    var d := start - now;
    MillisFields(d);
    SecondsClock(d / SECOND_MS);
  }

  /**
   * While running, the fields read the whole seconds left until the end
   * modulo one day: the days are dropped.
   */
  lemma EndsInIsClockOfDayRemainder(now: Ms, start: Ms, end: Ms)
    requires start <= now < end
    ensures var t := CalculateTimeLeft(now, start, end);
      IsClock(((end - now) / SECOND_MS) % 86400, 0, t.hours, t.minutes, t.seconds)
  {
    var d := end - now;
    var secs := d / SECOND_MS;
    MillisFields(d);
    SecondsClock(secs);
    assert secs % 86400 == secs - 86400 * (secs / 86400);
  }

  /**
   * For a reservation shorter than a day, as every reservation under the
   * six-hour cap is, nothing is dropped: the running fields add up to the
   * whole seconds left.
   */
  lemma EndsInWithinADay(now: Ms, start: Ms, end: Ms)
    requires start <= now < end && end - start < DAY_MS
    ensures var t := CalculateTimeLeft(now, start, end);
      IsClock((end - now) / SECOND_MS, 0, t.hours, t.minutes, t.seconds)
  {
    var d := end - now;
    var secs := d / SECOND_MS;
    EndsInIsClockOfDayRemainder(now, start, end);
    assert secs < 86400;
  }

  /** A clock reading of a number of seconds is the only one. */
  lemma ClockUnique(secs: int, d1: int, h1: int, m1: int, s1: int, d2: int, h2: int, m2: int, s2: int)
    requires IsClock(secs, d1, h1, m1, s1) && IsClock(secs, d2, h2, m2, s2)
    ensures d1 == d2 && h1 == h2 && m1 == m2 && s1 == s2
  {
    SecondsUnique(secs, d1, h1 * 3600 + m1 * 60 + s1, d2, h2 * 3600 + m2 * 60 + s2, 86400);
    SecondsUnique(h1 * 3600 + m1 * 60 + s1, h1, m1 * 60 + s1, h2, m2 * 60 + s2, 3600);
    SecondsUnique(m1 * 60 + s1, m1, s1, m2, s2, 60);
  }

  /** Quotient and remainder by a positive unit are unique. */
  lemma SecondsUnique(n: int, q1: int, r1: int, q2: int, r2: int, unit: int)
    requires unit > 0 && 0 <= r1 < unit && 0 <= r2 < unit
    requires q1 * unit + r1 == n && q2 * unit + r2 == n
    ensures q1 == q2 && r1 == r2
  {
    DivModOf(q1, unit, r1);
    DivModOf(q2, unit, r2);
  }

  /** What the component draws. */
  datatype Panel =
    | StartsInPanel(days: Option<int>, hours: int, minutes: int, seconds: int)
    | EndsInPanel(hours: int, minutes: int, seconds: int)
    | EndedPanel

  /**
   * The component's output for a status prop and its current state (None
   * before the first calculation): nothing unless the status is "active";
   * the days box only when there are days left.
   */
  function Render(status: JsString, timeLeft: Option<TimeLeft>): (p: Option<Panel>)
    ensures p.Some? <==> status == Lit("active") && timeLeft.Some?
    ensures p.Some? ==> (p.value.StartsInPanel? <==> timeLeft.value.StartsIn?)
    ensures p.Some? ==> (p.value.EndsInPanel? <==> timeLeft.value.EndsIn?)
    ensures p.Some? && p.value.StartsInPanel? ==>
      && (p.value.days.Some? <==> timeLeft.value.days > 0)
      && (p.value.days.Some? ==> p.value.days.value == timeLeft.value.days)
      && p.value.hours == timeLeft.value.hours && p.value.minutes == timeLeft.value.minutes
      && p.value.seconds == timeLeft.value.seconds
    ensures p.Some? && p.value.EndsInPanel? ==>
      && p.value.hours == timeLeft.value.hours && p.value.minutes == timeLeft.value.minutes
      && p.value.seconds == timeLeft.value.seconds
  {
    if status != Lit("active") then None
    else if timeLeft.None? then None
    else match timeLeft.value
      case StartsIn(days, hours, minutes, seconds) =>
        Some(StartsInPanel(if days > 0 then Some(days) else None, hours, minutes, seconds))
      case EndsIn(hours, minutes, seconds) => Some(EndsInPanel(hours, minutes, seconds))
      case Ended => Some(EndedPanel)
  }

  /**
   * Before an active reservation starts, the "starts in" panel is drawn,
   * and its days box appears exactly when the start is at least a day away.
   */
  lemma DaysBoxWhenADayAway(now: Ms, start: Ms, end: Ms)
    requires now < start
    ensures var p := Render(Lit("active"), Some(CalculateTimeLeft(now, start, end)));
      && p.Some? && p.value.StartsInPanel?
      && (p.value.days.Some? <==> start - now >= DAY_MS)
  {
    var d := start - now;
    if d >= DAY_MS {
      assert d / DAY_MS >= 1;
    } else {
      assert d / DAY_MS == 0;
    }
  }

  /** For a stored reservation, the countdown shows exactly while its status is active. */
  lemma RenderOnlyActive(r: Reservation, now: Ms)
    ensures Render(StatusText(r.status), Some(CalculateTimeLeft(now, r.startTime, r.endTime))).Some?
        <==> r.status == Active
  {
    StatusTextRoundTrip(Lit("active"), r.status);
  }
}

=== FILE: expiry_sweep.dfy ===
/**
 * The periodic sweep that completes active reservations whose end time
 * has passed and gives their slots back.
 */
module ExpirySweep {
  import opened Wrappers
  import opened Schema
  import opened ParkingSlotModel
  import opened ReservationModel
  import opened Store
  import opened ReservationRoutes

  /**
   * The reservations the sweep's query selects: active, with an end
   * strictly before now. An active reservation is due exactly when its
   * owner could delete it at the same instant.
   */
  function Due(db: Db, now: Ms): (due: set<Id>)
    ensures due <= db.reservations.Keys
    ensures forall id | id in due :: db.reservations[id].status == Active
    ensures forall id | id in db.reservations && db.reservations[id].status == Active ::
      id in due <==> Delete(db, id, db.reservations[id].user, now).outcome == Done
  {
    set id | id in db.reservations && db.reservations[id].status == Active && db.reservations[id].endTime < now
  }

  /** A reservation due at some instant is still due later: the due set only grows with time. */
  lemma DueGrowsWithTime(db: Db, now: Ms, later: Ms)
    requires now <= later
    ensures Due(db, now) <= Due(db, later)
  {
  }

  /**
   * The sweep and delete agree on when an active reservation is over: it is
   * due exactly when its owner's delete at the same instant succeeds.
   */
  lemma DueIffOwnerCanDelete(db: Db, now: Ms, id: Id)
    requires id in db.reservations && db.reservations[id].status == Active
    ensures id in Due(db, now) <==> Delete(db, id, db.reservations[id].user, now).outcome == Done
  {
  }

  predicate Distinct(ids: seq<Id>)
  {
    forall i, j | 0 <= i < j < |ids| :: ids[i] != ids[j]
  }

  /** The order in which the query returns the due reservations: each exactly once. */
  predicate Enumerates(order: seq<Id>, due: set<Id>)
  {
    Distinct(order) && (forall i | 0 <= i < |order| :: order[i] in due) && (forall id | id in due :: id in order)
  }

  /**
   * One iteration of the sweep: the reservation is saved completed; its
   * slot, if it exists and is reserved (by any reservation), is made
   * available and cleared, and the counter of the reservation's location
   * goes up by one, exactly as the owner's cancel would. Otherwise slots
   * and counters are left alone.
   */
  function CompleteOne(db: Db, id: Id): (db': Db)
    requires id in db.reservations
    ensures db'.reservations == db.reservations[id := db.reservations[id].(status := Completed)]
    ensures var r := db.reservations[id];
      r.status == Active && r.slot in db.slots && db.slots[r.slot].status == Reserved ==>
        var c := Cancel(db, id, r.user);
        c.outcome == Done && db'.slots == c.db.slots && db'.locations == c.db.locations
    ensures var r := db.reservations[id];
      if r.slot in db.slots && db.slots[r.slot].status == Reserved then
        && db'.slots == db.slots[r.slot := db.slots[r.slot].(status := Available, currentReservation := None)]
        && db'.locations == AdjustAvailable(db.locations, r.location, 1)
      else
        db'.slots == db.slots && db'.locations == db.locations
  {
    var r := db.reservations[id];
    var saved := db.(reservations := db.reservations[id := r.(status := Completed)]);
    if r.slot in db.slots && db.slots[r.slot].status == Reserved then
      saved.(slots := db.slots[r.slot := db.slots[r.slot].(status := Available, currentReservation := None)],
             locations := AdjustAvailable(db.locations, r.location, 1))
    else saved
  }

  /** No listed reservation is on slot s. */
  predicate NoneOnSlot(db: Db, ids: seq<Id>, s: Id)
    requires forall i | 0 <= i < |ids| :: ids[i] in db.reservations
  {
    forall i | 0 <= i < |ids| :: db.reservations[ids[i]].slot != s
  }

  /**
   * The sweep loop over a list of reservations: each listed reservation
   * ends up completed and every other one is untouched; only slots of
   * listed reservations may change.
   */
  function CompleteEach(db: Db, ids: seq<Id>): (db': Db)
    requires Distinct(ids)
    requires forall i | 0 <= i < |ids| :: ids[i] in db.reservations
    ensures db'.reservations.Keys == db.reservations.Keys
    ensures forall id | id in db.reservations ::
      db'.reservations[id] == if id in ids then db.reservations[id].(status := Completed) else db.reservations[id]
    ensures db'.slots.Keys == db.slots.Keys
    ensures forall s | s in db.slots && NoneOnSlot(db, ids, s) :: db'.slots[s] == db.slots[s]
    decreases |ids|
  {
    if |ids| == 0 then db
    else
      var next := CompleteOne(db, ids[0]);
      TailStillListed(db, ids);
      CompleteEach(next, ids[1..])
  }

  /** After the first iteration, the rest of the list is still there, unchanged, and covers the other slots. */
  lemma TailStillListed(db: Db, ids: seq<Id>)
    requires Distinct(ids) && |ids| > 0
    requires forall i | 0 <= i < |ids| :: ids[i] in db.reservations
    ensures Distinct(ids[1..])
    ensures forall i | 0 <= i < |ids[1..]| :: ids[1..][i] in CompleteOne(db, ids[0]).reservations
    ensures forall i | 0 <= i < |ids[1..]| ::
              CompleteOne(db, ids[0]).reservations[ids[1..][i]] == db.reservations[ids[1..][i]]
    ensures forall s | s in db.slots && NoneOnSlot(db, ids, s) ::
              db.reservations[ids[0]].slot != s && NoneOnSlot(CompleteOne(db, ids[0]), ids[1..], s)
  {
    var next := CompleteOne(db, ids[0]);
    forall i | 0 <= i < |ids[1..]| ensures next.reservations[ids[1..][i]] == db.reservations[ids[1..][i]] {
      assert ids[1..][i] == ids[i + 1] != ids[0];
    }
    forall s | s in db.slots && NoneOnSlot(db, ids, s)
      ensures db.reservations[ids[0]].slot != s && NoneOnSlot(next, ids[1..], s)
    {
      forall i | 0 <= i < |ids[1..]| ensures next.reservations[ids[1..][i]].slot != s {
        assert ids[1..][i] == ids[i + 1];
      }
    }
  }

  /**
   * updateExpiredReservations at time now: completes every due reservation,
   * in the order the query returned them.
   */
  function Sweep(db: Db, now: Ms, order: seq<Id>): (db': Db)
    requires Enumerates(order, Due(db, now))
    ensures db'.reservations.Keys == db.reservations.Keys
    ensures forall id | id in db.reservations ::
      db'.reservations[id] == if id in Due(db, now) then db.reservations[id].(status := Completed) else db.reservations[id]
    ensures Due(db', now) == {}
  {
    var db' := CompleteEach(db, order);
    assert forall id | id in db'.reservations :: id !in Due(db', now) by {
      forall id | id in db'.reservations ensures id !in Due(db', now) {
        if id in order { assert db'.reservations[id].status == Completed; }
      }
    }
    db'
  }

  /**
   * Sweeping again at the same time finds nothing due, so the second
   * query's enumeration is empty, and changes nothing.
   */
  lemma SweepIdempotent(db: Db, now: Ms, order: seq<Id>)
    requires Enumerates(order, Due(db, now))
    ensures Enumerates([], Due(Sweep(db, now, order), now))
    ensures Sweep(Sweep(db, now, order), now, []) == Sweep(db, now, order)
  {
  }

  /** Completing one active reservation of a consistent database keeps it consistent. */
  lemma CompleteOnePreservesConsistent(db: Db, id: Id)
    requires Consistent(db)
    requires id in db.reservations && db.reservations[id].status == Active
    ensures Consistent(CompleteOne(db, id))
  {
    assert HeldBy(db, id);
    var r := db.reservations[id];
    var db' := CompleteOne(db, id);
    forall other | other in db'.reservations && db'.reservations[other].status == Active
      ensures HeldBy(db', other)
    {
      assert HeldBy(db, other);
      ActiveSlotsDistinct(db, id, other);
    }
    forall l | l in db'.locations
      ensures db'.locations[l].availableSlots == AvailableCount(db'.slots, l)
    {
      CountAfterUpdate(db.slots, r.slot, db'.slots[r.slot], l);
    }
  }

  /** The sweep loop keeps a consistent database consistent when every listed reservation is active. */
  lemma {:induction false} CompleteEachPreservesConsistent(db: Db, ids: seq<Id>)
    requires Consistent(db)
    requires Distinct(ids)
    requires forall i | 0 <= i < |ids| :: ids[i] in db.reservations && db.reservations[ids[i]].status == Active
    ensures Consistent(CompleteEach(db, ids))
    decreases |ids|
  {
    if |ids| > 0 {
      CompleteOnePreservesConsistent(db, ids[0]);
      var next := CompleteOne(db, ids[0]);
      forall i | 0 <= i < |ids[1..]|
        ensures ids[1..][i] in next.reservations && next.reservations[ids[1..][i]].status == Active
      {
        assert ids[1..][i] == ids[i + 1] != ids[0];
      }
      CompleteEachPreservesConsistent(next, ids[1..]);
    }
  }

  /** The sweep keeps a consistent database consistent. */
  lemma SweepPreservesConsistent(db: Db, now: Ms, order: seq<Id>)
    requires Consistent(db)
    requires Enumerates(order, Due(db, now))
    ensures Consistent(Sweep(db, now, order))
  {
    CompleteEachPreservesConsistent(db, order);
  }

  /**
   * On a consistent database the sweep frees exactly the slots of the due
   * reservations: each becomes available with no reservation reference.
   */
  lemma SweepFreesDueSlots(db: Db, now: Ms, order: seq<Id>, id: Id)
    requires Consistent(db)
    requires Enumerates(order, Due(db, now))
    requires id in Due(db, now)
    ensures var s := db.reservations[id].slot;
            && s in Sweep(db, now, order).slots
            && Sweep(db, now, order).slots[s] == db.slots[s].(status := Available, currentReservation := None)
  {
    assert HeldBy(db, id);
    var i :| 0 <= i < |order| && order[i] == id;
    CompleteEachFreesSlot(db, order, i);
  }

  /** In the sweep loop, the slot of a listed active reservation ends up free. */
  lemma {:induction false} CompleteEachFreesSlot(db: Db, ids: seq<Id>, k: nat)
    requires Consistent(db)
    requires Distinct(ids)
    requires forall i | 0 <= i < |ids| :: ids[i] in db.reservations && db.reservations[ids[i]].status == Active
    requires k < |ids|
    ensures var s := db.reservations[ids[k]].slot;
            && s in CompleteEach(db, ids).slots
            && CompleteEach(db, ids).slots[s] == db.slots[s].(status := Available, currentReservation := None)
    decreases |ids|
  {
    var s := db.reservations[ids[k]].slot;
    assert HeldBy(db, ids[k]);
    var next := CompleteOne(db, ids[0]);
    CompleteOnePreservesConsistent(db, ids[0]);
    forall i | 0 <= i < |ids[1..]|
      ensures ids[1..][i] in next.reservations && next.reservations[ids[1..][i]].status == Active
    {
      assert ids[1..][i] == ids[i + 1] != ids[0];
    }
    if k == 0 {
      // No later reservation in the list holds slot s.
      assert NoneOnSlot(next, ids[1..], s) by {
        forall i | 0 <= i < |ids[1..]| ensures next.reservations[ids[1..][i]].slot != s {
          assert ids[1..][i] == ids[i + 1];
          ActiveSlotsDistinct(db, ids[0], ids[i + 1]);
        }
      }
    } else {
      assert ids[1..][k - 1] == ids[k];
      ActiveSlotsDistinct(db, ids[0], ids[k]);
      CompleteEachFreesSlot(next, ids[1..], k - 1);
    }
  }

  /**
   * The sweep's slot test looks at the status only: a reserved slot is
   * freed even when it records a different reservation, which is then left
   * active on an available slot.
   */
  lemma CompleteFreesSlotOfAnotherReservation(db: Db, id: Id, holder: Id)
    requires id in db.reservations && holder in db.reservations && id != holder
    requires db.reservations[holder].status == Active
    requires db.reservations[holder].slot == db.reservations[id].slot
    requires db.reservations[id].slot in db.slots
    requires db.slots[db.reservations[id].slot].status == Reserved
    requires db.slots[db.reservations[id].slot].currentReservation == Some(holder)
    ensures var after := CompleteOne(db, id);
            && after.reservations[holder].status == Active
            && after.slots[db.reservations[id].slot].status == Available
            && !Linked(after)
  {
    var after := CompleteOne(db, id);
    assert !HeldBy(after, holder);
  }
}

=== FILE: js_text.dfy ===
/**
 * ECMAScript strings as sequences of UTF-16 code units, and the few
 * built-in string and number conversions the parking system relies on:
 * String.prototype.trim, toUpperCase, substring, and
 * Number.prototype.toString for integer values.
 */
module JsText {

  /** A UTF-16 code unit. */
  type CodeUnit = c: int | 0 <= c < 0x1_0000

  /** An ECMAScript string value. */
  type JsString = seq<CodeUnit>

  /** The code units of a literal written with characters of the Basic Multilingual Plane. */
  function Lit(s: string): (r: JsString)
    requires forall i :: 0 <= i < |s| ==> s[i] as int < 0x1_0000
    ensures |r| == |s|
    ensures forall i :: 0 <= i < |s| ==> r[i] == s[i] as int
  {
    seq(|s|, i requires 0 <= i < |s| => s[i] as int)
  }

  // ---------------------------------------------------------------------
  // Whitespace and trim (section 22.1.3.32 of ECMA-262)
  // ---------------------------------------------------------------------

  /** WhiteSpace or LineTerminator code units, the ones trim removes. */
  predicate IsSpace(c: CodeUnit)
  {
    || c == 0x09 || c == 0x0A || c == 0x0B || c == 0x0C || c == 0x0D
    || c == 0x20 || c == 0xA0 || c == 0x1680
    || (0x2000 <= c <= 0x200A)
    || c == 0x2028 || c == 0x2029 || c == 0x202F || c == 0x205F
    || c == 0x3000 || c == 0xFEFF
  }

  predicate AllSpace(s: JsString)
  {
    forall i :: 0 <= i < |s| ==> IsSpace(s[i])
  }

  /** Number of leading whitespace code units. */
  function LeadingSpace(s: JsString): (n: nat)
    ensures n <= |s|
    ensures AllSpace(s[..n])
    ensures n < |s| ==> !IsSpace(s[n])
  {
    if |s| == 0 || !IsSpace(s[0]) then 0
    else
      var k := LeadingSpace(s[1..]);
      assert s[1..][..k] == s[1..k + 1];
      k + 1
  }

  /** Number of trailing whitespace code units. */
  function TrailingSpace(s: JsString): (n: nat)
    ensures n <= |s|
    ensures AllSpace(s[|s| - n..])
    ensures n < |s| ==> !IsSpace(s[|s| - n - 1])
  {
    if |s| == 0 || !IsSpace(s[|s| - 1]) then 0
    else
      var k := TrailingSpace(s[..|s| - 1]);
      assert s[..|s| - 1][|s| - 1 - k..] == s[|s| - 1 - k..|s| - 1];
      k + 1
  }

  /** String.prototype.trim: the text between leading and trailing whitespace. */
  function Trim(s: JsString): (r: JsString)
    ensures exists i, j :: 0 <= i <= j <= |s| && r == s[i..j] && AllSpace(s[..i]) && AllSpace(s[j..])
    ensures |r| > 0 ==> !IsSpace(r[0]) && !IsSpace(r[|r| - 1])
  {
    var i := LeadingSpace(s);
    var t := s[i..];
    var j := TrailingSpace(t);
    var e := |s| - j;
    assert s[e..] == t[|t| - j..];
    assert AllSpace(s[e..]);
    assert e > i ==> s[e - 1] == t[|t| - j - 1];
    assert 0 <= i <= e <= |s| && AllSpace(s[..i]);
    s[i..e]
  }

  /** Trimming a trimmed string changes nothing. */
  lemma TrimIdempotent(s: JsString)
    ensures Trim(Trim(s)) == Trim(s)
  {
    var r := Trim(s);
    if |r| > 0 {
      assert LeadingSpace(r) == 0;
      assert TrailingSpace(r) == 0;
    }
  }

  // ---------------------------------------------------------------------
  // Case mapping
  // ---------------------------------------------------------------------

  /** Upper-case image of one code unit; only the ASCII letters a-z are mapped. */
  function UpperUnit(c: CodeUnit): (u: CodeUnit)
  {
    if 'a' as int <= c <= 'z' as int then c - 32 else c
  }

  predicate IsLowerAscii(c: CodeUnit)
  {
    'a' as int <= c <= 'z' as int
  }

  /** String.prototype.toUpperCase restricted to ASCII letters. */
  function ToUpper(s: JsString): (r: JsString)
    ensures |r| == |s|
    ensures forall i :: 0 <= i < |s| ==> r[i] == UpperUnit(s[i])
    ensures forall i :: 0 <= i < |r| ==> !IsLowerAscii(r[i])
  {
    seq(|s|, i requires 0 <= i < |s| => UpperUnit(s[i]))
  }

  /** Upper-casing is idempotent. */
  lemma ToUpperIdempotent(s: JsString)
    ensures ToUpper(ToUpper(s)) == ToUpper(s)
  {
  }

  /** Upper-casing distributes over concatenation. */
  lemma ToUpperConcat(a: JsString, b: JsString)
    ensures ToUpper(a + b) == ToUpper(a) + ToUpper(b)
  {
  }

  // ---------------------------------------------------------------------
  // substring (section 22.1.3.25 of ECMA-262)
  // ---------------------------------------------------------------------

  function Clamp(x: int, len: nat): (r: nat)
    ensures r <= len
  {
    if x < 0 then 0 else if x > len then len else x
  }

  /** String.prototype.substring(start, end) for integer arguments. */
  function Substring(s: JsString, start: int, end: int): (r: JsString)
    ensures var a, b := Clamp(start, |s|), Clamp(end, |s|);
            var lo := if a <= b then a else b;
            && |r| == (if a <= b then b - a else a - b)
            && forall i :: 0 <= i < |r| ==> r[i] == s[lo + i]
  {
    var a, b := Clamp(start, |s|), Clamp(end, |s|);
    if a <= b then s[a..b] else s[b..a]
  }

  /**
   * substring does not care about the order of its arguments, returns as
   * many code units as lie between the clamped positions, and over the
   * whole range gives back the string.
   */
  lemma SubstringSwapAndLength(s: JsString, start: int, end: int)
    ensures Substring(s, start, end) == Substring(s, end, start)
    ensures var a, b := Clamp(start, |s|), Clamp(end, |s|);
      |Substring(s, start, end)| == if a <= b then b - a else a - b
    ensures start <= 0 && |s| <= end ==> Substring(s, start, end) == s
  {
  }

  // ---------------------------------------------------------------------
  // Number.prototype.toString(radix) for integer values
  // ---------------------------------------------------------------------

  /** The lower-case digit character for a digit value below 36. */
  function DigitUnit(d: nat): (c: CodeUnit)
    requires d < 36
  {
    if d < 10 then '0' as int + d else 'a' as int + (d - 10)
  }

  /** Digits of a non-negative integer in the given radix, most significant first, no leading zeros. */
  function Digits(n: nat, radix: nat): (r: JsString)
    requires 2 <= radix <= 36
    ensures |r| >= 1
    ensures n >= radix ==> r[0] != '0' as int
    decreases n
  {
    if n < radix then [DigitUnit(n)]
    else Digits(n / radix, radix) + [DigitUnit(n % radix)]
  }

  /** Number.prototype.toString(radix) applied to an integral number. */
  function IntToString(n: int, radix: nat): (r: JsString)
    requires 2 <= radix <= 36
  {
    if n < 0 then ['-' as int] + Digits(-n, radix) else Digits(n, radix)
  }

  /** A code unit among 0-9 and A-Z. */
  predicate IsUpperBase36Unit(c: CodeUnit)
  {
    ('0' as int <= c <= '9' as int) || ('A' as int <= c <= 'Z' as int)
  }

  /** The value of a code unit among 0-9 and A-Z. */
  function UpperBase36Value(c: CodeUnit): (v: nat)
    requires IsUpperBase36Unit(c)
    ensures v < 36
  {
    if c <= '9' as int then c - '0' as int else c - 'A' as int + 10
  }

  /** Reads an upper-case base-36 numeral. */
  function ParseUpperBase36(s: JsString): (v: nat)
    requires forall i :: 0 <= i < |s| ==> IsUpperBase36Unit(s[i])
  {
    if |s| == 0 then 0
    else ParseUpperBase36(s[..|s| - 1]) * 36 + UpperBase36Value(s[|s| - 1])
  }

  /**
   * Upper-cased base-36 digits of a non-negative integer use only 0-9 and
   * A-Z and read back as that integer.
   */
  lemma {:induction false} UpperBase36RoundTrip(n: nat)
    ensures forall i :: 0 <= i < |ToUpper(Digits(n, 36))| ==> IsUpperBase36Unit(ToUpper(Digits(n, 36))[i])
    ensures ParseUpperBase36(ToUpper(Digits(n, 36))) == n
  {
    var u := ToUpper(Digits(n, 36));
    if n < 36 {
      assert u == [UpperUnit(DigitUnit(n))];
    } else {
      UpperBase36RoundTrip(n / 36);
      var p := ToUpper(Digits(n / 36, 36));
      ToUpperConcat(Digits(n / 36, 36), [DigitUnit(n % 36)]);
      assert u == p + [UpperUnit(DigitUnit(n % 36))];
      assert u[..|u| - 1] == p;
    }
  }

  /** Decimal notation of a non-negative integer, as String(n) gives it. */
  function Decimal(n: nat): (r: JsString)
  {
    Digits(n, 10)
  }

  predicate IsDecimalDigit(c: CodeUnit)
  {
    '0' as int <= c <= '9' as int
  }

  /** Decimal numerals consist of digits only. */
  lemma {:induction false} DecimalAllDigits(n: nat)
    ensures forall i :: 0 <= i < |Decimal(n)| ==> IsDecimalDigit(Decimal(n)[i])
  {
    if n >= 10 {
      DecimalAllDigits(n / 10);
      assert Decimal(n) == Decimal(n / 10) + [DigitUnit(n % 10)];
    }
  }

  /** Reads a decimal numeral. */
  function ParseDecimal(s: JsString): (v: nat)
    requires forall i :: 0 <= i < |s| ==> IsDecimalDigit(s[i])
  {
    if |s| == 0 then 0
    else
      assert IsDecimalDigit(s[|s| - 1]);
      ParseDecimal(s[..|s| - 1]) * 10 + (s[|s| - 1] - '0' as int)
  }

  /** Decimal notation reads back as the number, so it is injective. */
  lemma {:induction false} DecimalRoundTrip(n: nat)
    ensures forall i :: 0 <= i < |Decimal(n)| ==> IsDecimalDigit(Decimal(n)[i])
    ensures ParseDecimal(Decimal(n)) == n
  {
    DecimalAllDigits(n);
    var d := Decimal(n);
    if n >= 10 {
      DecimalRoundTrip(n / 10);
      assert d[..|d| - 1] == Decimal(n / 10);
    }
  }
}

=== FILE: lifecycle.dfy ===
/**
 * Properties of the reservation handlers taken together: which of them
 * keep the database consistent, and what sequences of them do.
 */
module Lifecycle {
  import opened Wrappers
  import opened JsText
  import opened Schema
  import opened LocationModel
  import opened ParkingSlotModel
  import opened ReservationModel
  import opened Store
  import opened ReservationRoutes

  /** A slot replaced by itself with another status keeps a location's count unless the count contribution changes. */
  lemma CountersAfterSlotChange(db: Db, db': Db, s: Id, loc: Id, delta: int)
    requires CountersAgree(db)
    requires s in db.slots && db.slots[s].location == loc
    requires s in db'.slots && db'.slots == db.slots[s := db'.slots[s]]
    requires db'.slots[s].location == loc
    requires Counts(db'.slots[s], loc) - Counts(db.slots[s], loc) == delta
    requires db'.locations == AdjustAvailable(db.locations, loc, delta)
    ensures CountersAgree(db')
  {
    forall l | l in db'.locations
      ensures db'.locations[l].availableSlots == AvailableCount(db'.slots, l)
    {
      CountAfterUpdate(db.slots, s, db'.slots[s], l);
    }
  }

  /**
   * Create keeps the database consistent when the request names the
   * slot's own location, as the booking page does; the counter then stays
   * non-negative.
   */
  lemma CreatePreservesConsistent(db: Db, user: Id, body: CreateRequest, newId: Id, nowMs: Ms, randomText: JsString)
    requires newId !in db.reservations
    requires Consistent(db)
    requires body.slotId.Some? && body.slotId.value in db.slots
    requires body.locationId == Some(db.slots[body.slotId.value].location)
    ensures Consistent(Create(db, user, body, newId, nowMs, randomText).db)
    ensures forall l | l in Create(db, user, body, newId, nowMs, randomText).db.locations ::
              Create(db, user, body, newId, nowMs, randomText).db.locations[l].availableSlots >= 0
  {
    var reply := Create(db, user, body, newId, nowMs, randomText);
    if reply.outcome == Done {
      var db' := reply.db;
      var s := body.slotId.value;
      var loc := body.locationId.value;
      forall id | id in db'.reservations && db'.reservations[id].status == Active
        ensures HeldBy(db', id)
      {
        if id != newId {
          assert HeldBy(db, id);
          assert db.reservations[id].slot != s;
        }
      }
      assert db'.locations == AdjustAvailable(db.locations, loc, -1);
      CountersAfterSlotChange(db, db', s, loc, -1);
    }
  }

  /**
   * The handler does not compare the requested location with the slot's:
   * whenever a request naming another existing location succeeds, that
   * location's counter no longer matches its available slots.
   */
  lemma CreateWithForeignLocationBreaksCounters(db: Db, user: Id, body: CreateRequest, newId: Id, nowMs: Ms, randomText: JsString)
    requires newId !in db.reservations
    requires CountersAgree(db)
    requires body.slotId.Some? && body.slotId.value in db.slots
    requires body.locationId.Some? && body.locationId.value in db.locations
    requires body.locationId.value != db.slots[body.slotId.value].location
    requires Create(db, user, body, newId, nowMs, randomText).outcome == Done
    ensures !CountersAgree(Create(db, user, body, newId, nowMs, randomText).db)
  {
    var reply := Create(db, user, body, newId, nowMs, randomText);
    var s := body.slotId.value;
    var loc := body.locationId.value;
    assert reply.db.slots == db.slots[s := reply.db.slots[s]];
    CountAfterUpdate(db.slots, s, reply.db.slots[s], loc);
    assert reply.db.locations[loc].availableSlots != AvailableCount(reply.db.slots, loc);
  }

  /** Nothing guards the decrement: a location whose counter is already 0 goes to -1. */
  lemma CounterCanGoNegative()
    ensures
      var loc := Location(Lit("Lot"), Lit("1 Road"), Lit("North"), Point, 1, 0, 1, Lit("00:00"), Lit("23:59"), true);
      var slot := ParkingSlot(0, Lit("1A1"), 1, Regular, Available, 50, None);
      var db := Db(map[0 := loc], map[7 := slot], map[]);
      var body := CreateRequest(Some(0), Some(7), Some(0), Some(HOUR_MS), Some(1), Some(50),
                                Some(Lit("Asha")), Some(Lit("99")), Some(Lit("KA01")));
      var reply := Create(db, 3, body, 9, 0, Lit("0.abcdef"));
      reply.outcome == Done && reply.db.locations[0].availableSlots == -1
  {
  }

  /**
   * Create followed by the owner's cancel of the new reservation puts the
   * slot back to available and every location counter back where it was;
   * when the slot held no reservation reference before, all slots are
   * exactly as before.
   */
  lemma CreateThenCancelRestores(db: Db, user: Id, body: CreateRequest, newId: Id, nowMs: Ms, randomText: JsString)
    requires newId !in db.reservations
    requires Create(db, user, body, newId, nowMs, randomText).outcome == Done
    ensures var after := Cancel(Create(db, user, body, newId, nowMs, randomText).db, newId, user);
      && after.outcome == Done
      && after.db.locations == db.locations
      && after.db.slots[body.slotId.value].status == db.slots[body.slotId.value].status == Available
      && (db.slots[body.slotId.value].currentReservation.None? ==> after.db.slots == db.slots)
      && after.db.reservations[newId].status == Cancelled
  {
    var mid := Create(db, user, body, newId, nowMs, randomText).db;
    var after := Cancel(mid, newId, user);
    var s := body.slotId.value;
    var loc := body.locationId.value;
    assert mid.reservations[newId].slot == s && mid.reservations[newId].location == loc;
    assert after.outcome == Done;
    forall l | l in db.locations ensures after.db.locations[l] == db.locations[l] {
    }
    if db.slots[s].currentReservation.None? {
      assert after.db.slots[s] == db.slots[s];
    }
  }

  /** Cancel succeeds at most once: a second cancel is refused with 400 and changes nothing. */
  lemma CancelTwiceFails(db: Db, id: Id, user: Id)
    requires Cancel(db, id, user).outcome == Done
    ensures var once := Cancel(db, id, user).db;
            Cancel(once, id, user) == Reply(Failed(BadRequest), once)
  {
  }

  /** Cancel keeps the database consistent (the slot exists by Linked, so the call never fails half-way). */
  lemma CancelPreservesConsistent(db: Db, id: Id, user: Id)
    requires Consistent(db)
    ensures Cancel(db, id, user).outcome != Failed(ServerError)
    ensures Consistent(Cancel(db, id, user).db)
  {
    var reply := Cancel(db, id, user);
    if id in db.reservations && db.reservations[id].user == user && db.reservations[id].status == Active {
      assert HeldBy(db, id);
      var r := db.reservations[id];
      var db' := reply.db;
      forall other | other in db'.reservations && db'.reservations[other].status == Active
        ensures HeldBy(db', other)
      {
        assert other != id;
        assert HeldBy(db, other);
        ActiveSlotsDistinct(db, id, other);
      }
      assert db'.locations == AdjustAvailable(db.locations, r.location, 1);
      CountersAfterSlotChange(db, db', r.slot, r.location, 1);
    }
  }

  /** Extend keeps the database consistent: it changes one reservation's times and price only. */
  lemma ExtendPreservesConsistent(db: Db, id: Id, user: Id, hours: int)
    requires Consistent(db)
    ensures Consistent(Extend(db, id, user, hours).db)
  {
    var reply := Extend(db, id, user, hours);
    if reply.outcome == Done {
      var db' := reply.db;
      forall other | other in db'.reservations && db'.reservations[other].status == Active
        ensures HeldBy(db', other)
      {
        assert HeldBy(db, other);
      }
    }
  }

  /** Delete keeps the database consistent. */
  lemma DeletePreservesConsistent(db: Db, id: Id, user: Id, now: Ms)
    requires Consistent(db)
    ensures Consistent(Delete(db, id, user, now).db)
  {
    var reply := Delete(db, id, user, now);
    if reply.outcome == Done {
      var db' := reply.db;
      forall other | other in db'.reservations && db'.reservations[other].status == Active
        ensures HeldBy(db', other)
      {
        assert HeldBy(db, other);
      }
    }
  }

  /**
   * Deleting an active reservation whose end has passed leaves its slot
   * reserved and pointing at a reservation that no longer exists; no
   * remaining active reservation holds that slot, so nothing will free it.
   */
  lemma DeleteEndedActiveStrandsSlot(db: Db, id: Id, user: Id, now: Ms)
    requires Linked(db)
    requires id in db.reservations && db.reservations[id].user == user
    requires db.reservations[id].status == Active && db.reservations[id].endTime < now
    ensures var after := Delete(db, id, user, now).db;
            var s := db.reservations[id].slot;
            && s in after.slots && after.slots[s].status == Reserved
            && after.slots[s].currentReservation == Some(id) && id !in after.reservations
            && forall other | other in after.reservations && after.reservations[other].status == Active ::
                 after.reservations[other].slot != s
  {
    assert HeldBy(db, id);
    var after := Delete(db, id, user, now).db;
    forall other | other in after.reservations && after.reservations[other].status == Active
      ensures after.reservations[other].slot != db.reservations[id].slot
    {
      ActiveSlotsDistinct(db, id, other);
    }
  }

  /**
   * Extend keeps a reservation's end and price in step with its duration
   * at the slot's rate: the increments are exactly hours * one hour and
   * hours * the rate.
   */
  lemma ExtendKeepsPricing(db: Db, id: Id, user: Id, hours: int)
    requires Extend(db, id, user, hours).outcome == Done
    requires PricedAt(db.reservations[id], db.slots[db.reservations[id].slot].pricePerHour)
    ensures PricedAt(Extend(db, id, user, hours).db.reservations[id], db.slots[db.reservations[id].slot].pricePerHour)
  {
    var r := db.reservations[id];
    var p := db.slots[r.slot].pricePerHour;
    var e := Extend(db, id, user, hours).db.reservations[id];
    assert e.endTime == r.startTime + r.duration * HOUR_MS + hours * HOUR_MS;
    assert r.duration * HOUR_MS + hours * HOUR_MS == (r.duration + hours) * HOUR_MS;
    assert r.duration * p + hours * p == (r.duration + hours) * p;
  }

  /** Create leaves the slot layout (ids, locations, numbers, floors, types, prices) untouched. */
  lemma CreateKeepsLayout(db: Db, user: Id, body: CreateRequest, newId: Id, nowMs: Ms, randomText: JsString)
    requires newId !in db.reservations
    ensures SameLayout(db, Create(db, user, body, newId, nowMs, randomText).db)
  {
  }

  /** Cancel leaves the slot layout untouched. */
  lemma CancelKeepsLayout(db: Db, id: Id, user: Id)
    ensures SameLayout(db, Cancel(db, id, user).db)
  {
  }

  /**
   * A successful create adds the new reservation to its owner's list and
   * to no one else's.
   */
  lemma CreateListsNewReservation(db: Db, user: Id, body: CreateRequest, newId: Id, nowMs: Ms, randomText: JsString, viewer: Id)
    requires newId !in db.reservations
    requires Create(db, user, body, newId, nowMs, randomText).outcome == Done
    ensures ListForUser(Create(db, user, body, newId, nowMs, randomText).db, viewer)
         == if viewer == user then ListForUser(db, viewer) + {newId} else ListForUser(db, viewer)
  {
  }

  /** A successful delete takes the reservation off every list and changes nothing else in them. */
  lemma DeleteUnlists(db: Db, id: Id, user: Id, now: Ms, viewer: Id)
    requires Delete(db, id, user, now).outcome == Done
    ensures ListForUser(Delete(db, id, user, now).db, viewer) == ListForUser(db, viewer) - {id}
  {
  }

  /** A reservation is on its requester's list exactly when viewing it succeeds. */
  lemma ListedIffViewable(db: Db, id: Id, user: Id)
    ensures id in ListForUser(db, user) <==> View(db, id, user).Ok?
  {
  }
}

=== FILE: location_model.dfy ===
/** The Location record: a parking facility with an aggregate free-slot counter. */
module LocationModel {
  import opened Wrappers
  import opened JsText
  import opened Schema

  /** The only geometry type the coordinates may carry. */
  datatype GeoType = Point

  datatype Location = Location(
    name: JsString,
    address: JsString,
    area: JsString,
    geoType: GeoType,
    totalSlots: int,
    availableSlots: int,
    floors: int,
    open: JsString,
    close: JsString,
    isActive: bool)

  /** The fields a new location document is given; None is an absent field. */
  datatype LocationInput = LocationInput(
    name: Option<JsString>,
    address: Option<JsString>,
    area: Option<JsString>,
    geoType: Option<JsString>,
    totalSlots: Option<int>,
    availableSlots: Option<int>,
    floors: Option<int>,
    open: Option<JsString>,
    close: Option<JsString>,
    isActive: Option<bool>)

  function PointText(): JsString { Lit("Point") }

  function DefaultOpen(): JsString { Lit("00:00") }

  function DefaultClose(): JsString { Lit("23:59") }

  /** A trimmed string path: absent stays absent, present is trimmed. */
  function TrimmedPath(v: Option<JsString>): Option<JsString>
  {
    match v
    case None => None
    case Some(s) => Some(Trim(s))
  }

  /** Reads the geometry type, defaulting to Point. */
  function GeoTypeOf(t: Option<JsString>): (r: Result<GeoType, ValidationError>)
    ensures r.Ok? <==> t.None? || t.value == PointText()
  {
    if t.None? || t.value == PointText() then Ok(Point) else Err(NotInEnum("coordinates.type"))
  }

  function GetOr<T>(v: Option<T>, default: T): T
  {
    match v
    case None => default
    case Some(x) => x
  }

  /**
   * Builds a location document: setters (trim), then defaults, then the
   * required and enum validators.
   */
  function NewLocation(input: LocationInput): (r: Result<Location, ValidationError>)
    ensures r.Ok? <==>
      && input.name.Some? && |Trim(input.name.value)| > 0
      && HasText(input.address)
      && input.area.Some? && |Trim(input.area.value)| > 0
      && (input.geoType.None? || input.geoType.value == PointText())
    ensures r.Ok? ==>
      && r.value.name == Trim(input.name.value)
      && r.value.area == Trim(input.area.value)
      && r.value.address == input.address.value
      && r.value.geoType == Point
    ensures r.Ok? ==>
      && (input.totalSlots.Some? ==> r.value.totalSlots == input.totalSlots.value)
      && (input.availableSlots.Some? ==> r.value.availableSlots == input.availableSlots.value)
      && (input.floors.Some? ==> r.value.floors == input.floors.value)
      && (input.open.Some? ==> r.value.open == input.open.value)
      && (input.close.Some? ==> r.value.close == input.close.value)
      && (input.isActive.Some? ==> r.value.isActive == input.isActive.value)
    ensures r.Ok? ==>
      && (input.totalSlots.None? ==> r.value.totalSlots == 0)
      && (input.availableSlots.None? ==> r.value.availableSlots == 0)
      && (input.floors.None? ==> r.value.floors == 1)
      && (input.open.None? ==> r.value.open == Lit("00:00"))
      && (input.close.None? ==> r.value.close == Lit("23:59"))
      && (input.isActive.None? ==> r.value.isActive)
    ensures r.Ok? ==>
      && |r.value.name| > 0 && !IsSpace(r.value.name[0]) && !IsSpace(r.value.name[|r.value.name| - 1])
      && |r.value.area| > 0 && !IsSpace(r.value.area[0]) && !IsSpace(r.value.area[|r.value.area| - 1])
  {
    var name := TrimmedPath(input.name);
    var area := TrimmedPath(input.area);
    if !HasText(name) then Err(Required("name"))
    else if !HasText(input.address) then Err(Required("address"))
    else if !HasText(area) then Err(Required("area"))
    else
      match GeoTypeOf(input.geoType)
      case Err(e) => Err(e)
      case Ok(g) =>
        Ok(Location(
          name.value, input.address.value, area.value, g,
          GetOr(input.totalSlots, 0), GetOr(input.availableSlots, 0), GetOr(input.floors, 1),
          GetOr(input.open, DefaultOpen()), GetOr(input.close, DefaultClose()),
          GetOr(input.isActive, true)))
  }

  /** An input that gives only the required fields. */
  function MinimalInput(name: JsString, address: JsString, area: JsString): LocationInput
  {
    LocationInput(Some(name), Some(address), Some(area), None, None, None, None, None, None, None)
  }

  /**
   * With only the required fields given, a location starts empty
   * (no slots, none available), on one floor, open 00:00 to 23:59, active,
   * with a Point geometry.
   */
  lemma NewLocationDefaults(name: JsString, address: JsString, area: JsString)
    requires |Trim(name)| > 0 && |address| > 0 && |Trim(area)| > 0
    ensures NewLocation(MinimalInput(name, address, area))
         == Ok(Location(Trim(name), address, Trim(area), Point, 0, 0, 1, Lit("00:00"), Lit("23:59"), true))
  {
  }

  /** Building a location from its own fields reproduces it: trimming is stable. */
  lemma NewLocationStable(l: Location)
    requires |l.name| > 0 && |l.address| > 0 && |l.area| > 0
    requires l.name == Trim(l.name) && l.area == Trim(l.area)
    ensures NewLocation(LocationInput(
              Some(l.name), Some(l.address), Some(l.area), Some(PointText()),
              Some(l.totalSlots), Some(l.availableSlots), Some(l.floors),
              Some(l.open), Some(l.close), Some(l.isActive))) == Ok(l)
  {
    assert l.geoType == Point;
  }
}

=== FILE: parking_slot_model.dfy ===
/** The ParkingSlot record: one bay of a location, its status and its price. */
module ParkingSlotModel {
  import opened Wrappers
  import opened JsText
  import opened Schema

  datatype SlotStatus = Available | Occupied | Reserved | Maintenance

  datatype SlotType = Regular | Compact | Large | Handicap | Electric

  datatype ParkingSlot = ParkingSlot(
    location: Id,
    slotNumber: JsString,
    floor: int,
    kind: SlotType,
    status: SlotStatus,
    pricePerHour: int,
    currentReservation: Option<Id>)

  function StatusText(s: SlotStatus): JsString
  {
    match s
    case Available => Lit("available")
    case Occupied => Lit("occupied")
    case Reserved => Lit("reserved")
    case Maintenance => Lit("maintenance")
  }

  /** The status enum validator: exactly the four status words are accepted. */
  function StatusOfText(t: JsString): Option<SlotStatus>
  {
    if t == Lit("available") then Some(Available)
    else if t == Lit("occupied") then Some(Occupied)
    else if t == Lit("reserved") then Some(Reserved)
    else if t == Lit("maintenance") then Some(Maintenance)
    else None
  }

  function TypeText(k: SlotType): JsString
  {
    match k
    case Regular => Lit("regular")
    case Compact => Lit("compact")
    case Large => Lit("large")
    case Handicap => Lit("handicap")
    case Electric => Lit("electric")
  }

  /** The type enum validator: exactly the five type words are accepted. */
  function TypeOfText(t: JsString): Option<SlotType>
  {
    if t == Lit("regular") then Some(Regular)
    else if t == Lit("compact") then Some(Compact)
    else if t == Lit("large") then Some(Large)
    else if t == Lit("handicap") then Some(Handicap)
    else if t == Lit("electric") then Some(Electric)
    else None
  }

  /** A status word is accepted exactly when it is the text of a status, and reads back as that status. */
  lemma StatusTextRoundTrip(t: JsString, s: SlotStatus)
    ensures StatusOfText(StatusText(s)) == Some(s)
    ensures StatusOfText(t) == Some(s) <==> t == StatusText(s)
  {
    assert StatusText(s)[0] == (match s case Available => 'a' case Occupied => 'o' case Reserved => 'r' case Maintenance => 'm') as int;
  }

  /** A type word is accepted exactly when it is the text of a type, and reads back as that type. */
  lemma TypeTextRoundTrip(t: JsString, k: SlotType)
    ensures TypeOfText(TypeText(k)) == Some(k)
    ensures TypeOfText(t) == Some(k) <==> t == TypeText(k)
  {
    assert TypeText(k)[0] == (match k case Regular => 'r' case Compact => 'c' case Large => 'l' case Handicap => 'h' case Electric => 'e') as int;
  }

  /** The fields a new slot document is given; None is an absent field. */
  datatype SlotInput = SlotInput(
    location: Option<Id>,
    slotNumber: Option<JsString>,
    floor: Option<int>,
    kind: Option<JsString>,
    status: Option<JsString>,
    pricePerHour: Option<int>,
    currentReservation: Option<Id>)

  /** Builds a slot document: defaults, then the required and enum validators. */
  function NewSlot(input: SlotInput): (r: Result<ParkingSlot, ValidationError>)
    ensures r.Ok? <==>
      && input.location.Some?
      && HasText(input.slotNumber)
      && (input.kind.None? || TypeOfText(input.kind.value).Some?)
      && (input.status.None? || StatusOfText(input.status.value).Some?)
    ensures r.Ok? && input.status.Some? ==> StatusText(r.value.status) == input.status.value
    ensures r.Ok? && input.kind.Some? ==> TypeText(r.value.kind) == input.kind.value
    ensures r.Ok? ==>
      && r.value.location == input.location.value
      && r.value.slotNumber == input.slotNumber.value
      && r.value.currentReservation == input.currentReservation
      && (input.floor.Some? ==> r.value.floor == input.floor.value)
      && (input.pricePerHour.Some? ==> r.value.pricePerHour == input.pricePerHour.value)
    ensures r.Ok? && input.floor.None? ==> r.value.floor == 1
    ensures r.Ok? && input.pricePerHour.None? ==> r.value.pricePerHour == 50
    ensures r.Ok? && input.kind.None? ==> r.value.kind == Regular
    ensures r.Ok? && input.status.None? ==> r.value.status == Available
  {
    if input.location.None? then Err(Required("location"))
    else if !HasText(input.slotNumber) then Err(Required("slotNumber"))
    else
      var kind := if input.kind.None? then Some(Regular) else TypeOfText(input.kind.value);
      var status := if input.status.None? then Some(Available) else StatusOfText(input.status.value);
      if kind.None? then Err(NotInEnum("type"))
      else if status.None? then Err(NotInEnum("status"))
      else
        assert input.status.Some? ==> StatusText(status.value) == input.status.value by {
          if input.status.Some? { StatusTextRoundTrip(input.status.value, status.value); }
        }
        assert input.kind.Some? ==> TypeText(kind.value) == input.kind.value by {
          if input.kind.Some? { TypeTextRoundTrip(input.kind.value, kind.value); }
        }
        Ok(ParkingSlot(
          input.location.value, input.slotNumber.value,
          if input.floor.None? then 1 else input.floor.value,
          kind.value, status.value,
          if input.pricePerHour.None? then 50 else input.pricePerHour.value,
          input.currentReservation))
  }

  /**
   * With only a location and a slot number, a slot is a regular bay on
   * floor 1, available, at 50 per hour, holding no reservation.
   */
  lemma NewSlotDefaults(location: Id, slotNumber: JsString)
    requires |slotNumber| > 0
    ensures NewSlot(SlotInput(Some(location), Some(slotNumber), None, None, None, None, None))
         == Ok(ParkingSlot(location, slotNumber, 1, Regular, Available, 50, None))
  {
  }

  /** The fields of a stored slot, written back as a new document's input. */
  function InputOf(slot: ParkingSlot): SlotInput
  {
    SlotInput(Some(slot.location), Some(slot.slotNumber), Some(slot.floor), Some(TypeText(slot.kind)),
              Some(StatusText(slot.status)), Some(slot.pricePerHour), slot.currentReservation)
  }

  /** A slot with a slot number validates from its own fields and comes back unchanged. */
  lemma NewSlotStable(slot: ParkingSlot)
    requires |slot.slotNumber| > 0
    ensures NewSlot(InputOf(slot)) == Ok(slot)
  {
    StatusTextRoundTrip(StatusText(slot.status), slot.status);
    TypeTextRoundTrip(TypeText(slot.kind), slot.kind);
  }

  /** The unique (location, slotNumber) index: no two slots of one location share a number. */
  ghost predicate UniqueNumbers(slots: map<Id, ParkingSlot>)
  {
    forall a, b | a in slots && b in slots && a != b && slots[a].location == slots[b].location ::
      slots[a].slotNumber != slots[b].slotNumber
  }

  /** A slot with the same location and number as one already stored. */
  predicate NumberTaken(slots: map<Id, ParkingSlot>, slot: ParkingSlot)
  {
    exists a | a in slots :: slots[a].location == slot.location && slots[a].slotNumber == slot.slotNumber
  }

  /**
   * Inserting a slot document: a fresh id is required of the database, and
   * the unique index refuses a duplicate (location, slotNumber).
   */
  function InsertSlot(slots: map<Id, ParkingSlot>, id: Id, slot: ParkingSlot): (r: Option<map<Id, ParkingSlot>>)
    requires id !in slots
    ensures r.Some? <==> !NumberTaken(slots, slot)
    ensures r.Some? ==> r.value == slots[id := slot]
    ensures UniqueNumbers(slots) && r.Some? ==> UniqueNumbers(r.value)
  {
    if NumberTaken(slots, slot) then None else Some(slots[id := slot])
  }
}

=== FILE: reservation_model.dfy ===
/**
 * The Reservation record, its status enum, and the pre-validate hook that
 * gives every reservation a human-readable booking code.
 */
module ReservationModel {
  import opened Wrappers
  import opened JsText
  import opened Schema

  /** One hour in milliseconds. */
  const HOUR_MS: int := 60 * 60 * 1000

  datatype ReservationStatus = Active | Completed | Cancelled | Expired

  datatype Reservation = Reservation(
    reservationId: JsString,
    user: Id,
    location: Id,
    slot: Id,
    startTime: Ms,
    endTime: Ms,
    duration: int,
    totalPrice: int,
    status: ReservationStatus,
    userName: JsString,
    userPhone: JsString,
    licensePlate: JsString,
    checkInTime: Option<Ms>,
    checkOutTime: Option<Ms>)

  /** A reservation whose end and price follow from its start, duration and an hourly rate. */
  predicate PricedAt(r: Reservation, pricePerHour: int)
  {
    r.endTime == r.startTime + r.duration * HOUR_MS && r.totalPrice == r.duration * pricePerHour
  }

  function StatusText(s: ReservationStatus): JsString
  {
    match s
    case Active => Lit("active")
    case Completed => Lit("completed")
    case Cancelled => Lit("cancelled")
    case Expired => Lit("expired")
  }

  /** The status enum validator: exactly the four status words are accepted. */
  function StatusOfText(t: JsString): Option<ReservationStatus>
  {
    if t == Lit("active") then Some(Active)
    else if t == Lit("completed") then Some(Completed)
    else if t == Lit("cancelled") then Some(Cancelled)
    else if t == Lit("expired") then Some(Expired)
    else None
  }

  /** A status word is accepted exactly when it is the text of a status, and reads back as that status. */
  lemma StatusTextRoundTrip(t: JsString, s: ReservationStatus)
    ensures StatusOfText(StatusText(s)) == Some(s)
    ensures StatusOfText(t) == Some(s) <==> t == StatusText(s)
  {
    assert StatusText(s)[0] == (match s case Active => 'a' case Completed => 'c' case Cancelled => 'c' case Expired => 'e') as int;
    assert StatusText(s)[1] == (match s case Active => 'c' case Completed => 'o' case Cancelled => 'a' case Expired => 'x') as int;
  }

  /** The status path: absent means active, otherwise the word must name a status. */
  function StatusOf(t: Option<JsString>): (r: Option<ReservationStatus>)
    ensures t.None? ==> r == Some(Active)
    ensures t.Some? ==> (r.Some? <==> exists s :: t.value == StatusText(s))
    ensures t.Some? && r.Some? ==> StatusText(r.value) == t.value
  {
    if t.None? then Some(Active)
    else
      var r := StatusOfText(t.value);
      StatusTextRoundTrip(t.value, Active);
      StatusTextRoundTrip(t.value, Completed);
      StatusTextRoundTrip(t.value, Cancelled);
      StatusTextRoundTrip(t.value, Expired);
      r
  }

  // ---------------------------------------------------------------------
  // Booking code
  // ---------------------------------------------------------------------

  function Dash(): CodeUnit { '-' as int }

  function CodePrefix(): JsString { Lit("SP-") }

  /** The timestamp part of a booking code: the clock in upper-case base 36. */
  function TimestampPart(nowMs: int): JsString
  {
    ToUpper(IntToString(nowMs, 36))
  }

  /**
   * The random part of a booking code: characters 2 to 6 of the text of a
   * random number in base 36 ("0.xxxxxxxx"), upper-cased.
   */
  function RandomPart(randomText: JsString): (r: JsString)
    ensures |r| <= 4
    ensures |r| == 4 <==> |randomText| >= 6
    ensures forall i :: 0 <= i < |r| ==> !IsLowerAscii(r[i])
  {
    ToUpper(Substring(randomText, 2, 6))
  }

  /** The booking code built from the clock and a random draw. */
  function GenerateCode(nowMs: int, randomText: JsString): (code: JsString)
  {
    CodePrefix() + TimestampPart(nowMs) + [Dash()] + RandomPart(randomText)
  }

  /**
   * The pre-validate hook: a booking code is generated only when the
   * document has none (absent or empty); an existing one is kept.
   */
  function AssignReservationId(current: Option<JsString>, nowMs: int, randomText: JsString): (id: JsString)
    ensures HasText(current) ==> id == current.value
    ensures !HasText(current) ==> id == GenerateCode(nowMs, randomText)
    ensures |id| > 0
  {
    if HasText(current) then current.value else GenerateCode(nowMs, randomText)
  }

  /** Running the hook again on its own output changes nothing. */
  lemma AssignReservationIdStable(current: Option<JsString>, nowMs: int, randomText: JsString, laterMs: int, laterRandom: JsString)
    ensures var id := AssignReservationId(current, nowMs, randomText);
            AssignReservationId(Some(id), laterMs, laterRandom) == id
  {
  }

  /** Index of the first dash in a string, or its length when there is none. */
  function FirstDash(s: JsString): (n: nat)
    ensures n <= |s|
    ensures forall i :: 0 <= i < n ==> s[i] != Dash()
    ensures n < |s| ==> s[n] == Dash()
  {
    if |s| == 0 || s[0] == Dash() then 0 else FirstDash(s[1..]) + 1
  }

  /**
   * Splits a booking code into its timestamp and random parts, or None
   * when it does not start with the prefix or lacks the separating dash.
   */
  function SplitCode(code: JsString): Option<(JsString, JsString)>
  {
    if |code| < 3 || code[..3] != CodePrefix() then None
    else
      var body := code[3..];
      var k := FirstDash(body);
      if k == |body| then None else Some((body[..k], body[k + 1..]))
  }

  /** The first dash of a dash-free prefix followed by a dash is at the end of that prefix. */
  lemma {:induction false} FirstDashAfter(a: JsString, b: JsString)
    requires forall i :: 0 <= i < |a| ==> a[i] != Dash()
    ensures FirstDash(a + [Dash()] + b) == |a|
  {
    if |a| > 0 {
      assert (a + [Dash()] + b)[1..] == a[1..] + [Dash()] + b;
      FirstDashAfter(a[1..], b);
    }
  }

  /**
   * A code generated at a non-negative clock reading splits back into its
   * two parts; the timestamp part uses only 0-9 and A-Z and reads back as
   * the clock reading.
   */
  lemma GeneratedCodeRoundTrip(nowMs: nat, randomText: JsString)
    ensures SplitCode(GenerateCode(nowMs, randomText)) == Some((TimestampPart(nowMs), RandomPart(randomText)))
    ensures forall i :: 0 <= i < |TimestampPart(nowMs)| ==> IsUpperBase36Unit(TimestampPart(nowMs)[i])
    ensures ParseUpperBase36(TimestampPart(nowMs)) == nowMs
  {
    UpperBase36RoundTrip(nowMs);
    var t := TimestampPart(nowMs);
    var r := RandomPart(randomText);
    var code := GenerateCode(nowMs, randomText);
    assert forall i :: 0 <= i < |t| ==> t[i] != Dash() by {
      forall i | 0 <= i < |t| ensures t[i] != Dash() {
        assert IsUpperBase36Unit(t[i]);
      }
    }
    assert code[..3] == CodePrefix();
    assert code[3..] == t + [Dash()] + r;
    FirstDashAfter(t, r);
    assert (t + [Dash()] + r)[..|t|] == t;
    assert (t + [Dash()] + r)[|t| + 1..] == r;
  }

  // ---------------------------------------------------------------------
  // Document construction
  // ---------------------------------------------------------------------

  /** The fields a new reservation document is given; None is an absent field. */
  datatype ReservationInput = ReservationInput(
    reservationId: Option<JsString>,
    user: Option<Id>,
    location: Option<Id>,
    slot: Option<Id>,
    startTime: Option<Ms>,
    endTime: Option<Ms>,
    duration: Option<int>,
    totalPrice: Option<int>,
    status: Option<JsString>,
    userName: Option<JsString>,
    userPhone: Option<JsString>,
    licensePlate: Option<JsString>)

  function UpperPath(v: Option<JsString>): Option<JsString>
  {
    match v
    case None => None
    case Some(s) => Some(ToUpper(s))
  }

  /** The required fields that carry no text. */
  predicate HasRequiredValues(input: ReservationInput)
  {
    && input.user.Some? && input.location.Some? && input.slot.Some?
    && input.startTime.Some? && input.endTime.Some?
    && input.duration.Some? && input.totalPrice.Some?
  }

  /**
   * Builds a reservation document: the upper-case setter on the licence
   * plate, the booking-code hook, then defaults and validators.
   */
  function NewReservation(input: ReservationInput, nowMs: int, randomText: JsString): (r: Result<Reservation, ValidationError>)
    ensures r.Ok? <==>
      && HasRequiredValues(input)
      && HasText(input.userName) && HasText(input.userPhone) && HasText(input.licensePlate)
      && StatusOf(input.status).Some?
    ensures r.Ok? ==> r.value.licensePlate == ToUpper(input.licensePlate.value)
    ensures r.Ok? ==> forall i :: 0 <= i < |r.value.licensePlate| ==> !IsLowerAscii(r.value.licensePlate[i])
    ensures r.Ok? && input.status.None? ==> r.value.status == Active
    ensures r.Ok? && input.status.Some? ==> StatusText(r.value.status) == input.status.value
    ensures r.Ok? && HasText(input.reservationId) ==> r.value.reservationId == input.reservationId.value
    ensures r.Ok? && !HasText(input.reservationId) ==> r.value.reservationId == GenerateCode(nowMs, randomText)
    ensures r.Ok? ==> r.value.checkInTime.None? && r.value.checkOutTime.None?
  {
    var code := AssignReservationId(input.reservationId, nowMs, randomText);
    var plate := UpperPath(input.licensePlate);
    var status := StatusOf(input.status);
    if !HasRequiredValues(input) then Err(Required("user, location, slot, startTime, endTime, duration or totalPrice"))
    else if !HasText(input.userName) then Err(Required("userName"))
    else if !HasText(input.userPhone) then Err(Required("userPhone"))
    else if !HasText(plate) then Err(Required("licensePlate"))
    else if status.None? then Err(NotInEnum("status"))
    else
      Ok(Reservation(
        code, input.user.value, input.location.value, input.slot.value,
        input.startTime.value, input.endTime.value, input.duration.value, input.totalPrice.value,
        status.value, input.userName.value, input.userPhone.value, plate.value, None, None))
  }
}

=== FILE: reservation_routes.dfy ===
/**
 * The reservation request handlers (create, view, list, extend, cancel,
 * delete), each one atomic step from a database state to a reply carrying
 * the state after the call.
 */
module ReservationRoutes {
  import opened Wrappers
  import opened JsText
  import opened Schema
  import opened LocationModel
  import opened ParkingSlotModel
  import opened ReservationModel
  import opened Store

  /** The cap on a reservation's total duration, in hours, applied by extend. */
  const MAX_HOURS: int := 6

  /** Error replies: 404, 403, 400, and 500 for an exception the handler catches. */
  datatype ErrorKind = NotFound | Forbidden | BadRequest | ServerError

  datatype Outcome = Done | Failed(kind: ErrorKind)

  /** What a handler answers and the database after it ran. */
  datatype Reply = Reply(outcome: Outcome, db: Db)

  /** The body of a create request; None is a field the client left out. */
  datatype CreateRequest = CreateRequest(
    locationId: Option<Id>,
    slotId: Option<Id>,
    startTime: Option<Ms>,
    endTime: Option<Ms>,
    duration: Option<int>,
    totalPrice: Option<int>,
    userName: Option<JsString>,
    userPhone: Option<JsString>,
    licensePlate: Option<JsString>)

  /** The document the create handler asks the database to store. */
  function RequestInput(user: Id, body: CreateRequest): ReservationInput
  {
    ReservationInput(
      None, Some(user), body.locationId, body.slotId, body.startTime, body.endTime,
      body.duration, body.totalPrice, None, body.userName, body.userPhone, body.licensePlate)
  }

  /** The requested slot exists and is available. */
  predicate SlotFree(db: Db, slotId: Option<Id>)
  {
    slotId.Some? && slotId.value in db.slots && db.slots[slotId.value].status == Available
  }

  /** Some stored reservation already carries this booking code (the unique index on reservationId). */
  predicate CodeInUse(db: Db, code: JsString)
  {
    exists id | id in db.reservations :: db.reservations[id].reservationId == code
  }

  /** Create would store a document: it validates and its code is unused. */
  predicate Storable(db: Db, user: Id, body: CreateRequest, nowMs: Ms, randomText: JsString)
  {
    var doc := NewReservation(RequestInput(user, body), nowMs, randomText);
    doc.Ok? && !CodeInUse(db, doc.value.reservationId)
  }

  // ---------------------------------------------------------------------
  // POST /api/reservations
  // ---------------------------------------------------------------------

  /**
   * Create: refuses a missing or non-available slot with 400; otherwise
   * stores an active reservation under the fresh id newId, marks the slot
   * reserved by it, and decrements the counter of the location named in
   * the request. The slot's own location is not compared with it, the
   * client's price is stored as given, and the counter is not guarded
   * against going negative.
   */
  function Create(db: Db, user: Id, body: CreateRequest, newId: Id, nowMs: Ms, randomText: JsString): (reply: Reply)
    requires newId !in db.reservations
    ensures !SlotFree(db, body.slotId) ==> reply == Reply(Failed(BadRequest), db)
    ensures reply.outcome.Failed? ==> reply.db == db
    ensures SlotFree(db, body.slotId) && !Storable(db, user, body, nowMs, randomText) ==>
              reply == Reply(Failed(ServerError), db)
    ensures reply.outcome == Done <==> SlotFree(db, body.slotId) && Storable(db, user, body, nowMs, randomText)
    ensures reply.outcome == Done ==> reply.db.reservations.Keys == db.reservations.Keys + {newId}
    ensures reply.outcome == Done ==>
      var r := reply.db.reservations[newId];
      && (forall id | id in db.reservations :: reply.db.reservations[id] == db.reservations[id])
      && r.status == Active && r.user == user
      && body.locationId == Some(r.location) && body.slotId == Some(r.slot)
      && body.startTime == Some(r.startTime) && body.endTime == Some(r.endTime)
      && body.duration == Some(r.duration) && body.totalPrice == Some(r.totalPrice)
      && body.userName == Some(r.userName) && body.userPhone == Some(r.userPhone)
      && r.licensePlate == ToUpper(body.licensePlate.value)
      && r.reservationId == GenerateCode(nowMs, randomText)
      && !CodeInUse(db, r.reservationId)
      && r.checkInTime.None? && r.checkOutTime.None?
    ensures reply.outcome == Done ==>
      var s := body.slotId.value;
      var loc := body.locationId.value;
      && reply.db.slots.Keys == db.slots.Keys
      && reply.db.slots[s] == db.slots[s].(status := Reserved, currentReservation := Some(newId))
      && (forall t | t in db.slots && t != s :: reply.db.slots[t] == db.slots[t])
      && reply.db.locations.Keys == db.locations.Keys
      && (loc in db.locations ==>
            reply.db.locations[loc] == db.locations[loc].(availableSlots := db.locations[loc].availableSlots - 1))
      && (forall l | l in db.locations && l != loc :: reply.db.locations[l] == db.locations[l])
  {
    if !SlotFree(db, body.slotId) then Reply(Failed(BadRequest), db)
    else
      var doc := NewReservation(RequestInput(user, body), nowMs, randomText);
      if doc.Err? then Reply(Failed(ServerError), db)
      else if CodeInUse(db, doc.value.reservationId) then Reply(Failed(ServerError), db)
      else
        var r := doc.value;
        var s := body.slotId.value;
        Reply(Done, Db(
          AdjustAvailable(db.locations, r.location, -1),
          db.slots[s := db.slots[s].(status := Reserved, currentReservation := Some(newId))],
          db.reservations[newId := r]))
  }

  // ---------------------------------------------------------------------
  // GET /api/reservations/user and GET /api/reservations/:id
  // ---------------------------------------------------------------------

  /** The ids of the requester's reservations: exactly those the requester may view. */
  function ListForUser(db: Db, user: Id): (ids: set<Id>)
    ensures ids <= db.reservations.Keys
    ensures forall id :: id in ids <==> View(db, id, user).Ok?
  {
    set id | id in db.reservations && db.reservations[id].user == user
  }

  /** One reservation, shown only to its owner. */
  function View(db: Db, id: Id, user: Id): (r: Result<Reservation, ErrorKind>)
    ensures r.Ok? <==> id in db.reservations && db.reservations[id].user == user
    ensures r.Ok? ==> r.value == db.reservations[id]
    ensures id !in db.reservations ==> r == Err(NotFound)
    ensures id in db.reservations && db.reservations[id].user != user ==> r == Err(Forbidden)
  {
    if id !in db.reservations then Err(NotFound)
    else if db.reservations[id].user != user then Err(Forbidden)
    else Ok(db.reservations[id])
  }

  // ---------------------------------------------------------------------
  // PUT /api/reservations/:id/extend
  // ---------------------------------------------------------------------

  /** Why extend refuses, if it does; a missing slot is a 500 from reading its price. */
  function ExtendRefusal(db: Db, id: Id, user: Id, hours: int): Option<ErrorKind>
  {
    if id !in db.reservations then Some(NotFound)
    else
      var r := db.reservations[id];
      if r.user != user then Some(Forbidden)
      else if r.status != Active then Some(BadRequest)
      else if r.duration + hours > MAX_HOURS then Some(BadRequest)
      else if r.slot !in db.slots then Some(ServerError)
      else None
  }

  /**
   * Extend: for the owner of an active reservation whose total stays within
   * six hours, moves the end by the extra hours and adds their price at the
   * slot's hourly rate. The sign of the extra hours is not checked.
   */
  function Extend(db: Db, id: Id, user: Id, hours: int): (reply: Reply)
    ensures reply.outcome.Failed? ==> reply.db == db
    ensures id !in db.reservations ==> reply.outcome == Failed(NotFound)
    ensures id in db.reservations ==>
      var r := db.reservations[id];
      && (r.user != user ==> reply.outcome == Failed(Forbidden))
      && (r.user == user && r.status != Active ==> reply.outcome == Failed(BadRequest))
      && (r.user == user && r.status == Active && r.duration + hours > MAX_HOURS ==> reply.outcome == Failed(BadRequest))
      && (r.user == user && r.status == Active && r.duration + hours <= MAX_HOURS && r.slot !in db.slots ==>
            reply == Reply(Failed(ServerError), db))
      && (reply.outcome == Done <==> r.user == user && r.status == Active && r.duration + hours <= MAX_HOURS && r.slot in db.slots)
    ensures reply.outcome == Done ==> reply.db.reservations.Keys == db.reservations.Keys
    ensures reply.outcome == Done ==>
      var r := db.reservations[id];
      var e := reply.db.reservations[id];
      && e == r.(endTime := e.endTime, duration := e.duration, totalPrice := e.totalPrice)
      && e.endTime == r.endTime + hours * HOUR_MS
      && e.duration == r.duration + hours
      && e.totalPrice == r.totalPrice + hours * db.slots[r.slot].pricePerHour
      && e.duration <= MAX_HOURS
      && (forall other | other in db.reservations && other != id :: reply.db.reservations[other] == db.reservations[other])
      && reply.db.slots == db.slots && reply.db.locations == db.locations
  {
    var refusal := ExtendRefusal(db, id, user, hours);
    if refusal.Some? then Reply(Failed(refusal.value), db)
    else
      var r := db.reservations[id];
      var price := db.slots[r.slot].pricePerHour;
      var e := r.(endTime := r.endTime + hours * HOUR_MS,
                  duration := r.duration + hours,
                  totalPrice := r.totalPrice + hours * price);
      Reply(Done, db.(reservations := db.reservations[id := e]))
  }

  // ---------------------------------------------------------------------
  // PUT /api/reservations/:id/cancel
  // ---------------------------------------------------------------------

  /**
   * Cancel: for the owner of an active reservation, saves it cancelled,
   * frees its slot whatever the slot's status, and increments the counter
   * of the reservation's location. The reservation is saved before the
   * slot is read, so a missing slot yields a 500 after the status change.
   */
  function Cancel(db: Db, id: Id, user: Id): (reply: Reply)
    ensures id !in db.reservations ==> reply == Reply(Failed(NotFound), db)
    ensures id in db.reservations && db.reservations[id].user != user ==> reply == Reply(Failed(Forbidden), db)
    ensures id in db.reservations && db.reservations[id].user == user && db.reservations[id].status != Active ==>
              reply == Reply(Failed(BadRequest), db)
    ensures reply.outcome == Done <==>
      id in db.reservations && db.reservations[id].user == user && db.reservations[id].status == Active
      && db.reservations[id].slot in db.slots
    ensures id in db.reservations && db.reservations[id].user == user && db.reservations[id].status == Active
            && db.reservations[id].slot !in db.slots ==>
              reply == Reply(Failed(ServerError), db.(reservations := db.reservations[id := db.reservations[id].(status := Cancelled)]))
    ensures reply.outcome == Failed(ServerError) ==>
      && id in db.reservations && db.reservations[id].slot !in db.slots
      && reply.db == db.(reservations := db.reservations[id := db.reservations[id].(status := Cancelled)])
    ensures reply.outcome == Done ==>
      var r := db.reservations[id];
      && reply.db.reservations == db.reservations[id := r.(status := Cancelled)]
      && reply.db.slots.Keys == db.slots.Keys
      && reply.db.slots[r.slot] == db.slots[r.slot].(status := Available, currentReservation := None)
      && (forall t | t in db.slots && t != r.slot :: reply.db.slots[t] == db.slots[t])
      && reply.db.locations.Keys == db.locations.Keys
      && (r.location in db.locations ==>
            reply.db.locations[r.location]
              == db.locations[r.location].(availableSlots := db.locations[r.location].availableSlots + 1))
      && (forall l | l in db.locations && l != r.location :: reply.db.locations[l] == db.locations[l])
  {
    if id !in db.reservations then Reply(Failed(NotFound), db)
    else
      var r := db.reservations[id];
      if r.user != user then Reply(Failed(Forbidden), db)
      else if r.status != Active then Reply(Failed(BadRequest), db)
      else
        var saved := db.(reservations := db.reservations[id := r.(status := Cancelled)]);
        if r.slot !in db.slots then Reply(Failed(ServerError), saved)
        else
          Reply(Done, saved.(
            slots := db.slots[r.slot := db.slots[r.slot].(status := Available, currentReservation := None)],
            locations := AdjustAvailable(db.locations, r.location, 1)))
  }

  // ---------------------------------------------------------------------
  // DELETE /api/reservations/:id
  // ---------------------------------------------------------------------

  /** The statuses and times for which delete removes a reservation; the end must be strictly before now. */
  predicate Removable(r: Reservation, now: Ms)
  {
    || r.status == Cancelled || r.status == Completed || r.status == Expired
    || (r.status == Active && r.endTime < now)
  }

  /**
   * Delete: the owner may remove a reservation that is no longer active, or
   * an active one whose end has passed. Slots and locations are untouched.
   */
  function Delete(db: Db, id: Id, user: Id, now: Ms): (reply: Reply)
    ensures reply.outcome.Failed? ==> reply.db == db
    ensures id !in db.reservations ==> reply.outcome == Failed(NotFound)
    ensures id in db.reservations && db.reservations[id].user != user ==> reply.outcome == Failed(Forbidden)
    ensures reply.outcome == Done <==>
      && id in db.reservations && db.reservations[id].user == user
      && (db.reservations[id].status in {Cancelled, Completed, Expired}
          || (db.reservations[id].status == Active && db.reservations[id].endTime < now))
    ensures id in db.reservations && db.reservations[id].user == user
            && db.reservations[id].status == Active && db.reservations[id].endTime >= now ==>
              reply == Reply(Failed(BadRequest), db)
    ensures reply.outcome == Failed(BadRequest) ==>
      id in db.reservations && db.reservations[id].status == Active && db.reservations[id].endTime >= now
    ensures reply.outcome == Done ==>
      && reply.db.reservations.Keys == db.reservations.Keys - {id}
      && (forall other | other in reply.db.reservations :: reply.db.reservations[other] == db.reservations[other])
      && reply.db.slots == db.slots && reply.db.locations == db.locations
  {
    if id !in db.reservations then Reply(Failed(NotFound), db)
    else if db.reservations[id].user != user then Reply(Failed(Forbidden), db)
    else if Removable(db.reservations[id], now) then Reply(Done, db.(reservations := db.reservations - {id}))
    else Reply(Failed(BadRequest), db)
  }
}

=== FILE: reservation_wizard.dfy ===
/**
 * The five-step booking page: location, slot, duration, contact details,
 * confirmation. The page keeps the choices its child components report and
 * a step counter moved by the Next and Back buttons; the fourth Next sends
 * the create request and moves on only when it succeeds.
 */
module ReservationWizard {
  import opened Wrappers
  import opened JsText
  import opened Schema
  import opened ReservationModel
  import opened ReservationRoutes
  import opened Store
  import opened TimeSelector

  /** The chosen location; the page only reads its id. */
  datatype LocationChoice = LocationChoice(id: Id)

  /** The chosen slot as the slot grid reports it. */
  datatype SlotChoice = SlotChoice(id: Id, location: Id, pricePerHour: int)

  /** The contact fields the details form reports. */
  datatype UserDetails = UserDetails(name: JsString, phone: JsString, licensePlate: JsString)

  /**
   * The page's state. picker is the duration picker's own state while it is
   * mounted (at step 3) and None otherwise.
   */
  datatype Wizard = Wizard(
    step: int,
    location: Option<LocationChoice>,
    slot: Option<SlotChoice>,
    picker: Option<Selector>,
    time: Option<TimeDetails>,
    user: Option<UserDetails>,
    reservation: Option<Reservation>)

  /** What can happen on the page. */
  datatype Event =
    | ChooseLocation(location: LocationChoice)
    | ChooseSlot(slot: SlotChoice)
    | PickDuration(choice: nat)
    | PickStart(start: Ms)
    | EditDetails(details: UserDetails)
      /** clock: the current hour, read if the duration picker mounts; created: the create reply, None on failure. */
    | Next(clock: Ms, created: Option<Reservation>)
      /** clock: the current hour, read if the duration picker mounts. */
    | Back(clock: Ms)

  /** The page as first shown. */
  function Initial(): Wizard
  {
    Wizard(1, None, None, None, None, None, None)
  }

  /** The rate handed to the duration picker: the slot's price, or 0 without a slot. */
  function PriceProp(slot: Option<SlotChoice>): int
  {
    if slot.Some? then slot.value.pricePerHour else 0
  }

  /** Whether the current step's choice is made; the details need all three fields non-empty. */
  predicate CanProceed(w: Wizard)
  {
    match w.step
    case 1 => w.location.Some?
    case 2 => w.slot.Some?
    case 3 => w.time.Some?
    case 4 =>
      && w.user.Some?
      && |w.user.value.name| > 0 && |w.user.value.phone| > 0 && |w.user.value.licensePlate| > 0
    case _ => false
  }

  /**
   * The body of the create request, copied field by field from the
   * choices; None when a choice is missing, where the page's code throws
   * inside its try block.
   */
  function Payload(w: Wizard): (body: Option<CreateRequest>)
    ensures body.Some? <==> w.location.Some? && w.slot.Some? && w.time.Some? && w.user.Some?
    ensures body.Some? ==>
      && body.value.locationId == Some(w.location.value.id)
      && body.value.slotId == Some(w.slot.value.id)
      && body.value.startTime == Some(w.time.value.startTime)
      && body.value.endTime == Some(w.time.value.endTime)
      && body.value.duration == Some(w.time.value.duration)
      && body.value.totalPrice == Some(w.time.value.totalPrice)
      && body.value.userName == Some(w.user.value.name)
      && body.value.userPhone == Some(w.user.value.phone)
      && body.value.licensePlate == Some(w.user.value.licensePlate)
  {
    if w.location.None? || w.slot.None? || w.time.None? || w.user.None? then None
    else
      var t := w.time.value;
      var u := w.user.value;
      Some(CreateRequest(
        Some(w.location.value.id), Some(w.slot.value.id), Some(t.startTime), Some(t.endTime),
        Some(t.duration), Some(t.totalPrice), Some(u.name), Some(u.phone), Some(u.licensePlate)))
  }

  /** Moving to a step: the duration picker mounts on entering step 3 and unmounts on leaving it. */
  function EnterStep(w: Wizard, step: int, clock: Ms): (w': Wizard)
    ensures w'.step == step
    ensures w'.location == w.location && w'.slot == w.slot && w'.user == w.user && w'.reservation == w.reservation
    ensures step == 3 ==> w'.picker == Some(Selector(1, clock)) && w'.time.Some?
                          && Agrees(w'.picker.value, PriceProp(w.slot), w'.time.value)
    ensures step != 3 ==> w'.picker.None? && w'.time == w.time
  {
    if step == 3 then
      var mounted := Mount(clock, PriceProp(w.slot));
      w.(step := 3, picker := Some(mounted.0), time := Some(mounted.1))
    else
      w.(step := step, picker := None)
  }

  /**
   * One event. Choices are taken only from the component of the current
   * step; Next works only while its button is shown and enabled (before
   * step 5, with the step's choice made), and from step 4 it moves to 5 only
   * on a successful create; Back works only while shown and above step 1.
   */
  function Step(w: Wizard, e: Event): (w': Wizard)
    ensures 1 <= w.step <= 5 ==> 1 <= w'.step <= 5
    ensures w'.step > w.step ==>
      && e.Next? && w.step < 5 && CanProceed(w) && w'.step == w.step + 1
      && (w.step == 4 ==> e.created.Some? && w'.reservation == e.created && Payload(w).Some?)
    ensures w'.step < w.step ==> e.Back? && 1 < w.step < 5 && w'.step == w.step - 1
    ensures e.Next? && w.step < 4 && CanProceed(w) ==> w'.step == w.step + 1
    ensures e.Back? && 1 < w.step < 5 ==> w'.step == w.step - 1
  {
    match e
    case ChooseLocation(l) => if w.step == 1 then w.(location := Some(l)) else w
    case ChooseSlot(s) => if w.step == 2 then w.(slot := Some(s)) else w
    case PickDuration(choice) =>
      if w.step == 3 && w.picker.Some? && choice < |Durations()| then
        var out := ChangeDuration(w.picker.value, Durations()[choice], PriceProp(w.slot));
        w.(picker := Some(out.0), time := Some(out.1))
      else w
    case PickStart(start) =>
      if w.step == 3 && w.picker.Some? then
        var out := ChangeStart(w.picker.value, start, PriceProp(w.slot));
        w.(picker := Some(out.0), time := Some(out.1))
      else w
    case EditDetails(d) => if w.step == 4 then w.(user := Some(d)) else w
    case Next(clock, created) =>
      if !(w.step < 5 && CanProceed(w)) then w
      else if w.step == 4 then
        if Payload(w).Some? && created.Some? then w.(step := 5, reservation := created) else w
      else EnterStep(w, w.step + 1, clock)
    case Back(clock) =>
      if 1 < w.step < 5 then EnterStep(w, w.step - 1, clock) else w
  }

  /** The page after a run of events. */
  function Run(w: Wizard, events: seq<Event>): Wizard
    decreases |events|
  {
    if |events| == 0 then w else Run(Step(w, events[0]), events[1..])
  }

  /**
   * What the step counter guarantees: it stays in 1..5; every earlier
   * step's choice is made; while the duration picker is mounted the
   * reported window agrees with it at the slot's rate; from step 4 on the
   * window is 1..6 whole hours priced at the slot's rate; and step 5 holds a
   * created reservation and complete contact details.
   */
  predicate Ready(w: Wizard)
  {
    && 1 <= w.step <= 5
    && (w.step >= 2 ==> w.location.Some?)
    && (w.step >= 3 ==> w.slot.Some?)
    && (w.step == 3 <==> w.picker.Some?)
    && (w.step == 3 ==>
          && 1 <= w.picker.value.duration <= 6
          && w.time.Some? && Agrees(w.picker.value, PriceProp(w.slot), w.time.value))
    && (w.step >= 3 ==> w.time.Some? && 1 <= w.time.value.duration <= 6
                        && w.time.value.endTime == w.time.value.startTime + w.time.value.duration * HOUR_MS
                        && w.time.value.totalPrice == w.time.value.duration * PriceProp(w.slot))
    && (w.step == 5 ==>
          && w.user.Some? && |w.user.value.name| > 0 && |w.user.value.phone| > 0
          && |w.user.value.licensePlate| > 0 && w.reservation.Some?)
  }

  /** Every event keeps the page ready. */
  lemma StepKeepsReady(w: Wizard, e: Event)
    requires Ready(w)
    ensures Ready(Step(w, e))
  {
    if e.PickDuration? && w.step == 3 && e.choice < |Durations()| {
      assert Durations()[e.choice] in Durations();
    }
  }

  /** Whatever the user does, the page stays ready from the moment it is shown. */
  lemma {:induction false} RunKeepsReady(w: Wizard, events: seq<Event>)
    requires Ready(w)
    ensures Ready(Run(w, events))
    decreases |events|
  {
    if |events| > 0 {
      StepKeepsReady(w, events[0]);
      RunKeepsReady(Step(w, events[0]), events[1..]);
    }
  }

  /** The page as first shown is ready. */
  lemma InitialReady()
    ensures Ready(Initial()) && Initial().step == 1
  {
  }

  /** At the details step with all fields filled in, the request body exists. */
  lemma PayloadAtDetails(w: Wizard)
    requires Ready(w) && w.step == 4 && CanProceed(w)
    ensures Payload(w).Some?
  {
  }

  /** From the slot step, Back and then Next give back the same page. */
  lemma BackThenNextAtSlotStep(w: Wizard, c1: Ms, c2: Ms, created: Option<Reservation>)
    requires Ready(w) && w.step == 2
    ensures Step(Step(w, Back(c1)), Next(c2, created)) == w
  {
  }

  /**
   * From the details step, Back remounts the duration picker, so a later
   * Next comes back with a one-hour window from the current hour: the
   * duration picked before is lost.
   */
  lemma BackFromDetailsResetsDuration(w: Wizard, c1: Ms, c2: Ms, created: Option<Reservation>)
    requires Ready(w) && w.step == 4
    ensures var w' := Step(Step(w, Back(c1)), Next(c2, created));
      && w'.step == 4 && w'.time.Some?
      && w'.time.value.duration == 1 && w'.time.value.startTime == c1
  {
  }

  /**
   * Booking through the page: when the slot's rate as shown is its stored
   * rate and the create request succeeds, the stored reservation lasts one
   * to six hours and is priced at the slot's rate.
   */
  lemma WizardBookingPriced(w: Wizard, db: Db, user: Id, newId: Id, nowMs: Ms, randomText: JsString)
    requires Ready(w) && w.step == 4 && CanProceed(w)
    requires newId !in db.reservations
    requires w.slot.value.id in db.slots && db.slots[w.slot.value.id].pricePerHour == w.slot.value.pricePerHour
    requires Create(db, user, Payload(w).value, newId, nowMs, randomText).outcome == Done
    ensures var r := Create(db, user, Payload(w).value, newId, nowMs, randomText).db.reservations[newId];
      && 1 <= r.duration <= 6
      && PricedAt(r, db.slots[w.slot.value.id].pricePerHour)
      && r.location == w.location.value.id && r.slot == w.slot.value.id
  {
    PayloadAtDetails(w);
  }

  /**
   * Going back to the first step and choosing another location keeps the
   * slot chosen at the old one, and Next is enabled with it: the request can
   * name a location and a slot of a different location.
   */
  lemma StaleSlotAfterLocationChange()
    ensures var w := Run(Initial(), [
        ChooseLocation(LocationChoice(1)), Next(0, None),
        ChooseSlot(SlotChoice(7, 1, 50)), Back(0),
        ChooseLocation(LocationChoice(2)), Next(0, None)]);
      && w.step == 2 && CanProceed(w)
      && w.slot.value.location != w.location.value.id
  {
  }
}

=== FILE: schema.dfy ===
/**
 * Identifiers, timestamps and the document-validation rules that the
 * three record schemas share.
 */
module Schema {
  import opened Wrappers
  import opened JsText

  /** A document id (a database object id). */
  type Id = nat

  /** A point in time, in milliseconds since the epoch. */
  type Ms = int

  /** Why a document failed validation. */
  datatype ValidationError = Required(path: string) | NotInEnum(path: string)

  /**
   * The required-validator of a string path: the value must be present and,
   * once any setter has run, non-empty.
   */
  predicate HasText(v: Option<JsString>)
  {
    v.Some? && |v.value| > 0
  }
}

=== FILE: seed.dfy ===
/**
 * The seed script's slot-layout generator and sample-reservation
 * arithmetic. Its random draws are parameters: kindAt(k) is the type drawn
 * for the k-th generated slot and heldAt(k) says whether a non-available
 * k-th slot is drawn occupied (true) or reserved (false).
 */
module Seed {
  import opened Wrappers
  import opened JsText
  import opened Schema
  import opened ParkingSlotModel
  import opened ReservationModel
  import opened Arith

  /** A generated slot document, before the database gives it an id. */
  datatype SlotSpec = SlotSpec(slotNumber: JsString, floor: int, kind: SlotType, status: SlotStatus, pricePerHour: int)

  function Max(a: int, b: int): int { if a >= b then a else b }

  function Min(a: int, b: int): int { if a <= b then a else b }

  /** The hourly price of a generated slot: 75 electric, 30 handicap, 50 otherwise. */
  function PriceFor(kind: SlotType): (p: int)
    ensures p == 75 <==> kind == Electric
    ensures p == 30 <==> kind == Handicap
    ensures p == 50 <==> kind != Electric && kind != Handicap
  {
    match kind
    case Electric => 75
    case Handicap => 30
    case _ => 50
  }

  /** String.fromCharCode(64 + Math.ceil(i / 10)): a row letter, A for 1..10, B for 11..20, ... */
  function RowLetter(i: int): CodeUnit
  {
    (64 + CeilDiv(i, 10)) % 0x1_0000
  }

  /** (i % 10) || 10: the position within the row, 1..10. */
  function RowPosition(i: int): (p: int)
    requires i >= 1
    ensures 1 <= p <= 10
  {
    if i % 10 == 0 then 10 else i % 10
  }

  /** The slot number of the i-th slot on a floor: the floor, the row letter, the position. */
  function SlotNumber(floor: nat, i: int): JsString
    requires i >= 1
  {
    Decimal(floor) + [RowLetter(i)] + Decimal(RowPosition(i))
  }

  /** Slots one to ten of a floor are A1 to A10 and slot eleven is B1. */
  lemma SlotNumberExamples()
    ensures SlotNumber(1, 1) == Lit("1A1")
    ensures SlotNumber(1, 10) == Lit("1A10")
    ensures SlotNumber(1, 11) == Lit("1B1")
    ensures SlotNumber(2, 20) == Lit("2B10")
  {
    assert Decimal(10) == Digits(1, 10) + [DigitUnit(0)];
  }

  /** Row letter and position determine the index on the floor. */
  lemma RowDetermines(i: int)
    requires i >= 1
    ensures i == 10 * (CeilDiv(i, 10) - 1) + RowPosition(i)
  {
  }

  /** A run of digits ended by a non-digit splits a string in only one way. */
  lemma DigitsThenNonDigit(a1: JsString, rest1: JsString, a2: JsString, rest2: JsString)
    requires forall k :: 0 <= k < |a1| ==> IsDecimalDigit(a1[k])
    requires forall k :: 0 <= k < |a2| ==> IsDecimalDigit(a2[k])
    requires |rest1| > 0 && !IsDecimalDigit(rest1[0])
    requires |rest2| > 0 && !IsDecimalDigit(rest2[0])
    requires a1 + rest1 == a2 + rest2
    ensures a1 == a2 && rest1 == rest2
  {
    var s := a1 + rest1;
    assert !IsDecimalDigit(s[|a1|]) && !IsDecimalDigit(s[|a2|]);
    assert forall k :: 0 <= k < |a1| ==> s[k] == a1[k];
    assert forall k :: 0 <= k < |a2| ==> s[k] == a2[k];
    assert |a1| == |a2|;
    assert a1 == s[..|a1|] && a2 == s[..|a2|];
    assert rest1 == s[|a1|..] && rest2 == s[|a2|..];
  }

  /**
   * Slot numbers are injective in (floor, index) while the row letter does
   * not wrap past the last UTF-16 code unit.
   */
  lemma SlotNumberInjective(f1: nat, i1: int, f2: nat, i2: int)
    requires 1 <= i1 && 1 <= i2
    requires 64 + CeilDiv(i1, 10) < 0x1_0000 && 64 + CeilDiv(i2, 10) < 0x1_0000
    requires SlotNumber(f1, i1) == SlotNumber(f2, i2)
    ensures f1 == f2 && i1 == i2
  {
    var r1 := [RowLetter(i1)] + Decimal(RowPosition(i1));
    var r2 := [RowLetter(i2)] + Decimal(RowPosition(i2));
    assert SlotNumber(f1, i1) == Decimal(f1) + r1;
    assert SlotNumber(f2, i2) == Decimal(f2) + r2;
    DecimalAllDigits(f1);
    DecimalAllDigits(f2);
    DigitsThenNonDigit(Decimal(f1), r1, Decimal(f2), r2);
    assert Decimal(RowPosition(i1)) == r1[1..] == r2[1..] == Decimal(RowPosition(i2));
    DecimalRoundTrip(f1);
    DecimalRoundTrip(f2);
    DecimalRoundTrip(RowPosition(i1));
    DecimalRoundTrip(RowPosition(i2));
    RowDetermines(i1);
    RowDetermines(i2);
  }

  // ---------------------------------------------------------------------
  // The generator
  // ---------------------------------------------------------------------

  /** Number of generated slots that are not available. */
  function NonAvailableCount(slots: seq<SlotSpec>): (n: nat)
    ensures n <= |slots|
  {
    if |slots| == 0 then 0
    else NonAvailableCount(slots[..|slots| - 1]) + (if slots[|slots| - 1].status != Available then 1 else 0)
  }

  /** Number of generated slots that are available. */
  function AvailableCount(slots: seq<SlotSpec>): nat
  {
    |slots| - NonAvailableCount(slots)
  }

  /** The slots per floor: Math.ceil(totalSlots / floors); at least one when any slot is wanted. */
  function SlotsPerFloor(totalSlots: int, floors: int): (p: int)
    requires floors >= 1
    ensures totalSlots >= 1 ==> p >= 1
    ensures totalSlots <= 0 ==> p <= 0
  {
    CeilDiv(totalSlots, floors)
  }

  /** The floors times the slots per floor cover every wanted slot. */
  lemma FloorsCoverTotal(totalSlots: int, floors: int)
    requires floors >= 1
    ensures totalSlots <= floors * SlotsPerFloor(totalSlots, floors)
  {
  }

  /** Span(n, w): the number of slots on n full floors of w slots, counted floor by floor. */
  function Span(n: nat, w: int): (s: int)
    ensures w >= 0 ==> s >= 0
  {
    if n == 0 then 0 else Span(n - 1, w) + w
  }

  /** Counting floor by floor is multiplication. */
  lemma {:induction false} SpanIsProduct(n: nat, w: int)
    ensures Span(n, w) == n * w
  {
    if n > 0 {
      SpanIsProduct(n - 1, w);
      assert (n - 1) * w + w == n * w;
    }
  }

  /** Where the generator puts a slot: its floor and its index on that floor, both from 1. */
  datatype Position = Position(floor: int, index: int)

  /**
   * The position of the k-th generated slot (from 0) when every floor holds
   * w slots: the floor loop fills floor 1 with indices 1..w, then floor 2,
   * and so on.
   */
  function Place(k: nat, w: int): (p: Position)
    requires w >= 1
    ensures p.floor >= 1 && 1 <= p.index <= w
    ensures k == Span(p.floor - 1, w) + p.index - 1
    decreases k
  {
    if k < w then Position(1, k + 1)
    else
      var p := Place(k - w, w);
      Position(p.floor + 1, p.index)
  }

  /** The slot built at a floor and index is the one Place puts there. */
  lemma {:induction false} PlaceAt(floor: int, i: int, w: int)
    requires w >= 1 && floor >= 1 && 1 <= i <= w
    ensures Place(Span(floor - 1, w) + i - 1, w) == Position(floor, i)
    decreases floor
  {
    if floor > 1 {
      PlaceAt(floor - 1, i, w);
    }
  }

  /** Distinct slots get distinct positions. */
  lemma PlaceInjective(j: nat, k: nat, w: int)
    requires w >= 1 && Place(j, w) == Place(k, w)
    ensures j == k
  {
  }

  /** The position is the quotient and remainder form Math.ceil's floor count stands for. */
  lemma PlaceIsDivMod(k: nat, w: int)
    requires w >= 1
    ensures Place(k, w) == Position(k / w + 1, k % w + 1)
  {
    var p := Place(k, w);
    SpanIsProduct(p.floor - 1, w);
    DivModOf(p.floor - 1, w, p.index - 1);
  }

  /** A slot before the end of n full floors lies on one of them. */
  lemma {:induction false} PlaceFloorBound(k: nat, w: int, n: nat)
    requires w >= 1 && k < Span(n, w)
    ensures Place(k, w).floor <= n
    decreases k
  {
    if k >= w {
      PlaceFloorBound(k - w, w, n - 1);
    }
  }

  /**
   * The k-th generated slot, stated independently of the loops: it lies at
   * Place(k, perFloor), and it is non-available exactly when k is below
   * totalSlots - availableSlots.
   */
  function ExpectedSlot(totalSlots: int, availableSlots: int, floors: int,
                        kindAt: nat -> SlotType, heldAt: nat -> bool, k: nat): SlotSpec
    requires floors >= 1 && k < totalSlots
  {
    var at := Place(k, SlotsPerFloor(totalSlots, floors));
    var kind := kindAt(k);
    var status := if k < totalSlots - availableSlots then HeldStatus(heldAt(k)) else Available;
    SlotSpec(SlotNumber(at.floor, at.index), at.floor, kind, status, PriceFor(kind))
  }

  /** The status drawn for a slot that must not be available. */
  function HeldStatus(occupied: bool): (s: SlotStatus)
    ensures s != Available
  {
    if occupied then Occupied else Reserved
  }

  /** The generated slots so far are the expected ones, in order. */
  predicate ExpectedPrefix(totalSlots: int, availableSlots: int, floors: int,
                           kindAt: nat -> SlotType, heldAt: nat -> bool, slots: seq<SlotSpec>)
    requires floors >= 1
  {
    |slots| == 0 ||
    (&& |slots| <= totalSlots
     && ExpectedPrefix(totalSlots, availableSlots, floors, kindAt, heldAt, slots[..|slots| - 1])
     && slots[|slots| - 1] == ExpectedSlot(totalSlots, availableSlots, floors, kindAt, heldAt, |slots| - 1))
  }

  /** An expected prefix holds the expected slot at every position. */
  lemma {:induction false} ExpectedPrefixAt(totalSlots: int, availableSlots: int, floors: int,
                                            kindAt: nat -> SlotType, heldAt: nat -> bool, slots: seq<SlotSpec>)
    requires floors >= 1
    requires ExpectedPrefix(totalSlots, availableSlots, floors, kindAt, heldAt, slots)
    ensures |slots| <= Max(0, totalSlots)
    ensures forall k | 0 <= k < |slots| :: slots[k] == ExpectedSlot(totalSlots, availableSlots, floors, kindAt, heldAt, k)
  {
    if |slots| > 0 {
      var init := slots[..|slots| - 1];
      ExpectedPrefixAt(totalSlots, availableSlots, floors, kindAt, heldAt, init);
      assert forall k | 0 <= k < |init| :: slots[k] == init[k];
    }
  }

  /** Appending the expected next slot extends the expected prefix. */
  lemma AppendExpected(totalSlots: int, availableSlots: int, floors: int,
                       kindAt: nat -> SlotType, heldAt: nat -> bool, slots: seq<SlotSpec>, slot: SlotSpec)
    requires floors >= 1 && |slots| < totalSlots
    requires ExpectedPrefix(totalSlots, availableSlots, floors, kindAt, heldAt, slots)
    requires slot == ExpectedSlot(totalSlots, availableSlots, floors, kindAt, heldAt, |slots|)
    ensures ExpectedPrefix(totalSlots, availableSlots, floors, kindAt, heldAt, slots + [slot])
  {
    var next := slots + [slot];
    assert next[..|slots|] == slots;
  }

  /** Appending a slot adds one to the non-available count exactly when that slot is not available. */
  lemma CountAppend(slots: seq<SlotSpec>, slot: SlotSpec)
    ensures NonAvailableCount(slots + [slot]) == NonAvailableCount(slots) + (if slot.status != Available then 1 else 0)
  {
    var next := slots + [slot];
    assert next[..|slots|] == slots;
  }

  /**
   * One step of the inner loop: the slot built at this floor and index, with
   * the status chosen from the count of non-available slots so far, is the
   * expected one, and appending it keeps the loop's invariants.
   */
  lemma StepKeepsInvariants(totalSlots: int, availableSlots: int, floors: int,
                            kindAt: nat -> SlotType, heldAt: nat -> bool, floor: int, i: int,
                            slots: seq<SlotSpec>, status: SlotStatus)
    requires floors >= 1 && |slots| < totalSlots
    requires 1 <= floor && 1 <= i <= SlotsPerFloor(totalSlots, floors)
    requires |slots| == Span(floor - 1, SlotsPerFloor(totalSlots, floors)) + i - 1
    requires ExpectedPrefix(totalSlots, availableSlots, floors, kindAt, heldAt, slots)
    requires NonAvailableCount(slots) == Min(|slots|, Max(0, totalSlots - availableSlots))
    requires status == if NonAvailableCount(slots) < totalSlots - availableSlots then HeldStatus(heldAt(|slots|)) else Available
    ensures var next := slots + [SlotSpec(SlotNumber(floor, i), floor, kindAt(|slots|), status, PriceFor(kindAt(|slots|)))];
      && ExpectedPrefix(totalSlots, availableSlots, floors, kindAt, heldAt, next)
      && NonAvailableCount(next) == Min(|next|, Max(0, totalSlots - availableSlots))
  {
    PlaceAt(floor, i, SlotsPerFloor(totalSlots, floors));
    var slot := SlotSpec(SlotNumber(floor, i), floor, kindAt(|slots|), status, PriceFor(kindAt(|slots|)));
    AppendExpected(totalSlots, availableSlots, floors, kindAt, heldAt, slots, slot);
    CountAppend(slots, slot);
  }

  /**
   * The inner loop of the seed script for one floor: indices 1..perFloor,
   * stopping once totalSlots slots exist; each new slot is non-available
   * while fewer than totalSlots - availableSlots of the slots so far are.
   */
  method FillFloor(totalSlots: int, availableSlots: int, floors: int,
                   kindAt: nat -> SlotType, heldAt: nat -> bool, floor: int, ghost base: int,
                   slots: seq<SlotSpec>) returns (filled: seq<SlotSpec>)
    requires 1 <= floor <= floors
    requires SlotsPerFloor(totalSlots, floors) >= 1
    requires base == Span(floor - 1, SlotsPerFloor(totalSlots, floors))
    requires |slots| == Min(Max(0, totalSlots), base)
    requires ExpectedPrefix(totalSlots, availableSlots, floors, kindAt, heldAt, slots)
    requires NonAvailableCount(slots) == Min(|slots|, Max(0, totalSlots - availableSlots))
    ensures |filled| == Min(Max(0, totalSlots), base + SlotsPerFloor(totalSlots, floors))
    ensures ExpectedPrefix(totalSlots, availableSlots, floors, kindAt, heldAt, filled)
    ensures NonAvailableCount(filled) == Min(|filled|, Max(0, totalSlots - availableSlots))
  {
    filled := slots;
    var perFloor := SlotsPerFloor(totalSlots, floors);
    var occupiedCount := totalSlots - availableSlots;
    var i := 1;
    while i <= perFloor
      invariant 1 <= i <= perFloor + 1
      invariant |filled| == Min(Max(0, totalSlots), base + i - 1)
      invariant ExpectedPrefix(totalSlots, availableSlots, floors, kindAt, heldAt, filled)
      invariant NonAvailableCount(filled) == Min(|filled|, Max(0, occupiedCount))
    {
      if |filled| >= totalSlots {
        break;
      }
      var kind := kindAt(|filled|);
      var status := Available;
      var currentOccupied := NonAvailableCount(filled);
      if currentOccupied < occupiedCount {
        status := HeldStatus(heldAt(|filled|));
      }
      StepKeepsInvariants(totalSlots, availableSlots, floors, kindAt, heldAt, floor, i, filled, status);
      filled := filled + [SlotSpec(SlotNumber(floor, i), floor, kind, status, PriceFor(kind))];
      i := i + 1;
    }
  }

  /**
   * The seed loop for one location: floors 1..floors, each filled by
   * FillFloor, so that the slots are exactly the expected ones and the
   * first totalSlots - availableSlots of them are non-available.
   */
  method GenerateSlots(totalSlots: int, availableSlots: int, floors: int,
                       kindAt: nat -> SlotType, heldAt: nat -> bool) returns (slots: seq<SlotSpec>)
    ensures floors < 1 ==> slots == []
    ensures floors >= 1 ==> |slots| == Max(0, totalSlots)
    ensures floors >= 1 ==> forall k | 0 <= k < |slots| ::
              slots[k] == ExpectedSlot(totalSlots, availableSlots, floors, kindAt, heldAt, k)
    ensures NonAvailableCount(slots) == Min(|slots|, Max(0, totalSlots - availableSlots))
  {
    slots := [];
    if floors < 1 {
      return;
    }
    var perFloor := SlotsPerFloor(totalSlots, floors);
    if perFloor < 1 {
      return;
    }
    ghost var base := 0;
    var floor := 1;
    while floor <= floors
      invariant 1 <= floor <= floors + 1
      invariant base == Span(floor - 1, perFloor)
      invariant |slots| == Min(Max(0, totalSlots), base)
      invariant ExpectedPrefix(totalSlots, availableSlots, floors, kindAt, heldAt, slots)
      invariant NonAvailableCount(slots) == Min(|slots|, Max(0, totalSlots - availableSlots))
    {
      slots := FillFloor(totalSlots, availableSlots, floors, kindAt, heldAt, floor, base, slots);
      base := base + perFloor;
      floor := floor + 1;
    }
    FloorsCoverTotal(totalSlots, floors);
    SpanIsProduct(floors, perFloor);
    ExpectedPrefixAt(totalSlots, availableSlots, floors, kindAt, heldAt, slots);
  }

  /** Every generated slot lies on a floor between 1 and floors. */
  lemma ExpectedSlotFloor(totalSlots: int, availableSlots: int, floors: int,
                          kindAt: nat -> SlotType, heldAt: nat -> bool, k: nat)
    requires floors >= 1 && k < totalSlots
    ensures 1 <= ExpectedSlot(totalSlots, availableSlots, floors, kindAt, heldAt, k).floor <= floors
  {
    var perFloor := SlotsPerFloor(totalSlots, floors);
    FloorsCoverTotal(totalSlots, floors);
    SpanIsProduct(floors, perFloor);
    PlaceFloorBound(k, perFloor, floors);
  }

  /**
   * The generated available count equals the location's counter exactly
   * when that counter lies between 0 and the number of slots generated.
   */
  lemma SeedCounterMatches(slots: seq<SlotSpec>, totalSlots: int, availableSlots: int)
    requires |slots| == Max(0, totalSlots)
    requires NonAvailableCount(slots) == Min(|slots|, Max(0, totalSlots - availableSlots))
    ensures AvailableCount(slots) == availableSlots <==> 0 <= availableSlots <= Max(0, totalSlots)
  {
  }

  /**
   * Generated slot numbers of one location are pairwise distinct, as the
   * unique index demands, while the row letter stays below the last UTF-16
   * code unit.
   */
  lemma GeneratedNumbersDistinct(totalSlots: int, availableSlots: int, floors: int,
                                 kindAt: nat -> SlotType, heldAt: nat -> bool, j: nat, k: nat)
    requires floors >= 1 && j < k < totalSlots
    requires SlotsPerFloor(totalSlots, floors) <= 10 * (0x1_0000 - 65)
    ensures ExpectedSlot(totalSlots, availableSlots, floors, kindAt, heldAt, j).slotNumber
         != ExpectedSlot(totalSlots, availableSlots, floors, kindAt, heldAt, k).slotNumber
  {
    var perFloor := SlotsPerFloor(totalSlots, floors);
    var pj, pk := Place(j, perFloor), Place(k, perFloor);
    if SlotNumber(pj.floor, pj.index) == SlotNumber(pk.floor, pk.index) {
      SlotNumberInjective(pj.floor, pj.index, pk.floor, pk.index);
      PlaceInjective(j, k, perFloor);
    }
  }

  /**
   * Every generated slot passes the ParkingSlot schema as inserted, with
   * the location's id and no reservation, and is stored with exactly the
   * generated fields.
   */
  lemma GeneratedSlotValidates(totalSlots: int, availableSlots: int, floors: int,
                               kindAt: nat -> SlotType, heldAt: nat -> bool, k: nat, location: Id)
    requires floors >= 1 && k < totalSlots
    ensures var e := ExpectedSlot(totalSlots, availableSlots, floors, kindAt, heldAt, k);
      NewSlot(SlotInput(Some(location), Some(e.slotNumber), Some(e.floor), Some(TypeText(e.kind)),
                        Some(ParkingSlotModel.StatusText(e.status)), Some(e.pricePerHour), None))
        == Ok(ParkingSlot(location, e.slotNumber, e.floor, e.kind, e.status, e.pricePerHour, None))
  {
    var e := ExpectedSlot(totalSlots, availableSlots, floors, kindAt, heldAt, k);
    var at := Place(k, SlotsPerFloor(totalSlots, floors));
    assert |SlotNumber(at.floor, at.index)| > 0;
    NewSlotStable(ParkingSlot(location, e.slotNumber, e.floor, e.kind, e.status, e.pricePerHour, None));
  }

  // ---------------------------------------------------------------------
  // Sample reservations
  // ---------------------------------------------------------------------

  /**
   * The i-th sample reservation: it starts i hours after now, lasts
   * durationDraw + 1 hours (the draw is Math.floor(Math.random() * 4)) and
   * costs that many hours at the slot's rate.
   */
  function SampleReservation(i: nat, nowMs: Ms, durationDraw: int, location: Id, slot: Id, pricePerHour: int,
                             user: Id, name: JsString, phone: JsString, plate: JsString): ReservationInput
  {
    var start := nowMs + i * HOUR_MS;
    var duration := durationDraw + 1;
    ReservationInput(
      None, Some(user), Some(location), Some(slot), Some(start), Some(start + duration * HOUR_MS),
      Some(duration), Some(duration * pricePerHour), Some(Lit("active")), Some(name), Some(phone), Some(plate))
  }

  /**
   * A sample reservation validates, is active, lasts one to four hours,
   * starts i hours from now, and its end and price follow from its
   * duration at the slot's rate.
   */
  lemma SampleReservationPriced(i: nat, nowMs: Ms, durationDraw: int, location: Id, slot: Id, pricePerHour: int,
                                user: Id, name: JsString, phone: JsString, plate: JsString, clock: Ms, randomText: JsString)
    requires 0 <= durationDraw < 4
    requires |name| > 0 && |phone| > 0 && |plate| > 0
    ensures var r := NewReservation(SampleReservation(i, nowMs, durationDraw, location, slot, pricePerHour,
                                                      user, name, phone, plate), clock, randomText);
      && r.Ok? && r.value.status == Active
      && 1 <= r.value.duration <= 4
      && r.value.startTime == nowMs + i * HOUR_MS
      && PricedAt(r.value, pricePerHour)
  {
    ReservationModel.StatusTextRoundTrip(Lit("active"), Active);
  }
}

=== FILE: store.dfy ===
/**
 * The database as three immutable maps from ids to records, the derived
 * free-slot count, and the global invariants that the reservation
 * lifecycle is meant to keep.
 */
module Store {
  import opened Wrappers
  import opened Schema
  import opened LocationModel
  import opened ParkingSlotModel
  import opened ReservationModel

  datatype Db = Db(
    locations: map<Id, Location>,
    slots: map<Id, ParkingSlot>,
    reservations: map<Id, Reservation>)

  /** The ids of a location's slots whose status is available. */
  function AvailableIds(slots: map<Id, ParkingSlot>, loc: Id): set<Id>
  {
    set s | s in slots && slots[s].location == loc && slots[s].status == Available
  }

  /** How many of a location's slots are available. */
  function AvailableCount(slots: map<Id, ParkingSlot>, loc: Id): nat
  {
    |AvailableIds(slots, loc)|
  }

  /** 1 when a slot counts towards a location's free slots, else 0. */
  function Counts(slot: ParkingSlot, loc: Id): nat
  {
    if slot.location == loc && slot.status == Available then 1 else 0
  }

  /** A location's free count is that of its other slots plus what slot s contributes. */
  lemma CountSplit(slots: map<Id, ParkingSlot>, s: Id, loc: Id)
    requires s in slots
    ensures AvailableCount(slots, loc) == |AvailableIds(slots, loc) - {s}| + Counts(slots[s], loc)
  {
    var ids := AvailableIds(slots, loc);
    if Counts(slots[s], loc) == 1 {
      assert ids == (ids - {s}) + {s};
    } else {
      assert ids == ids - {s};
    }
  }

  /** Replacing one slot changes a location's free count by what the old and new slot contribute. */
  lemma CountAfterUpdate(slots: map<Id, ParkingSlot>, s: Id, ns: ParkingSlot, loc: Id)
    requires s in slots
    ensures AvailableCount(slots[s := ns], loc) == AvailableCount(slots, loc) - Counts(slots[s], loc) + Counts(ns, loc)
  {
    CountSplit(slots, s, loc);
    CountSplit(slots[s := ns], s, loc);
    assert AvailableIds(slots[s := ns], loc) - {s} == AvailableIds(slots, loc) - {s};
  }

  /** Adds delta to a location's counter; a missing location is left alone, as an update by id that matches nothing. */
  function AdjustAvailable(locations: map<Id, Location>, loc: Id, delta: int): (r: map<Id, Location>)
    ensures r.Keys == locations.Keys
    ensures loc in locations ==> r[loc] == locations[loc].(availableSlots := locations[loc].availableSlots + delta)
    ensures forall l | l in locations && l != loc :: r[l] == locations[l]
  {
    if loc in locations
    then locations[loc := locations[loc].(availableSlots := locations[loc].availableSlots + delta)]
    else locations
  }

  /** The slot of active reservation id is reserved, points back to id, and lies in the reservation's location. */
  ghost predicate HeldBy(db: Db, id: Id)
    requires id in db.reservations
  {
    var r := db.reservations[id];
    && r.slot in db.slots
    && db.slots[r.slot].status == Reserved
    && db.slots[r.slot].currentReservation == Some(id)
    && db.slots[r.slot].location == r.location
  }

  /** Every active reservation holds its slot. */
  ghost predicate Linked(db: Db)
  {
    forall id | id in db.reservations && db.reservations[id].status == Active :: HeldBy(db, id)
  }

  /** Every location's counter equals the number of its available slots. */
  ghost predicate CountersAgree(db: Db)
  {
    forall l | l in db.locations :: db.locations[l].availableSlots == AvailableCount(db.slots, l)
  }

  ghost predicate Consistent(db: Db)
  {
    Linked(db) && CountersAgree(db)
  }

  /** Two states have the same slots apart from status and current reservation. */
  ghost predicate SameLayout(a: Db, b: Db)
  {
    && a.slots.Keys == b.slots.Keys
    && forall s | s in a.slots ::
         && b.slots[s].location == a.slots[s].location
         && b.slots[s].slotNumber == a.slots[s].slotNumber
         && b.slots[s].floor == a.slots[s].floor
         && b.slots[s].kind == a.slots[s].kind
         && b.slots[s].pricePerHour == a.slots[s].pricePerHour
  }

  /** Status-only slot changes keep the unique (location, slotNumber) index satisfied. */
  lemma SameLayoutKeepsUniqueNumbers(a: Db, b: Db)
    requires SameLayout(a, b)
    requires UniqueNumbers(a.slots)
    ensures UniqueNumbers(b.slots)
  {
  }

  /** Under the counter invariant, a location with an available slot has a positive counter. */
  lemma CounterPositiveWhenSlotFree(db: Db, s: Id)
    requires CountersAgree(db)
    requires s in db.slots && db.slots[s].status == Available && db.slots[s].location in db.locations
    ensures db.locations[db.slots[s].location].availableSlots >= 1
  {
    assert s in AvailableIds(db.slots, db.slots[s].location);
  }

  /** Under Linked, two distinct active reservations never share a slot. */
  lemma ActiveSlotsDistinct(db: Db, a: Id, b: Id)
    requires Linked(db)
    requires a in db.reservations && db.reservations[a].status == Active
    requires b in db.reservations && db.reservations[b].status == Active
    requires a != b
    ensures db.reservations[a].slot != db.reservations[b].slot
  {
    assert HeldBy(db, a) && HeldBy(db, b);
  }
}

=== FILE: time_selector.dfy ===
/**
 * The booking page's duration picker: the offered durations, the time
 * window and price it emits to the page, and the state it keeps between a
 * duration click and a start-time edit.
 */
module TimeSelector {
  import opened Schema
  import opened ReservationModel
  import opened Arith

  /** The duration buttons, in the order they are shown. */
  function Durations(): (d: seq<int>)
    ensures |d| == 6
    ensures forall h :: h in d <==> 1 <= h <= 6
    ensures forall i, j | 0 <= i < j < |d| :: d[i] < d[j]
  {
    [1, 2, 3, 4, 5, 6]
  }

  /** What the picker reports to the page (the page's timeDetails). */
  datatype TimeDetails = TimeDetails(duration: int, startTime: Ms, endTime: Ms, totalPrice: int)

  /** The picker's own state: the highlighted duration and the start-time field. */
  datatype Selector = Selector(duration: int, startTime: Ms)

  /**
   * The details reported for a duration, a start and an hourly price: they
   * agree with what a picker showing that duration and start displays.
   */
  function UpdateTimeSelection(hours: int, start: Ms, pricePerHour: int): (t: TimeDetails)
    ensures Agrees(Selector(hours, start), pricePerHour, t)
  {
    TimeDetails(hours, start, start + hours * 60 * 60 * 1000, hours * pricePerHour)
  }

  /** The whole hours a reported window spans. */
  function HoursOf(t: TimeDetails): int
  {
    (t.endTime - t.startTime) / HOUR_MS
  }

  /**
   * The reported details give back what they were made from: the window's
   * length is the duration, it starts at the start, and for a positive
   * duration the total divided by it is the hourly rate.
   */
  lemma TimeSelectionRoundTrip(hours: int, start: Ms, pricePerHour: int)
    ensures var t := UpdateTimeSelection(hours, start, pricePerHour);
      && HoursOf(t) == hours && t.startTime == start
      && (hours > 0 ==> t.totalPrice / hours == pricePerHour)
  {
    var t := UpdateTimeSelection(hours, start, pricePerHour);
    DivModOf(hours, HOUR_MS, 0);
    if hours > 0 {
      DivModOf(pricePerHour, hours, 0);
    }
  }

  /** The total shown under the buttons: duration times the rate. */
  function DisplayedTotal(s: Selector, pricePerHour: int): int
  {
    s.duration * pricePerHour
  }

  /** The last report agrees with what the picker shows. */
  predicate Agrees(s: Selector, pricePerHour: int, t: TimeDetails)
  {
    && t.duration == s.duration
    && t.startTime == s.startTime
    && t.endTime == s.startTime + s.duration * HOUR_MS
    && t.totalPrice == DisplayedTotal(s, pricePerHour)
  }

  /** Mounting: one hour from the given start (the current hour), reported at once. */
  function Mount(start: Ms, pricePerHour: int): (out: (Selector, TimeDetails))
    ensures out.0.duration == 1 && out.0.startTime == start
    ensures Agrees(out.0, pricePerHour, out.1)
  {
    var s := Selector(1, start);
    (s, UpdateTimeSelection(s.duration, s.startTime, pricePerHour))
  }

  /** A duration click: the start time is kept and the new details are reported. */
  function ChangeDuration(s: Selector, hours: int, pricePerHour: int): (out: (Selector, TimeDetails))
    ensures out.0.startTime == s.startTime && out.0.duration == hours
    ensures Agrees(out.0, pricePerHour, out.1)
  {
    var s' := s.(duration := hours);
    (s', UpdateTimeSelection(hours, s.startTime, pricePerHour))
  }

  /** A start-time edit: the duration is kept and the new details are reported. */
  function ChangeStart(s: Selector, start: Ms, pricePerHour: int): (out: (Selector, TimeDetails))
    ensures out.0.duration == s.duration && out.0.startTime == start
    ensures Agrees(out.0, pricePerHour, out.1)
  {
    var s' := s.(startTime := start);
    (s', UpdateTimeSelection(s.duration, start, pricePerHour))
  }

  /** A user action on the picker: a duration button or the start-time field. */
  datatype PickerEvent = PickDuration(choice: nat) | PickStart(start: Ms)

  /** The picker after a run of actions; a duration button is an index into Durations(). */
  function Run(s: Selector, t: TimeDetails, pricePerHour: int, events: seq<PickerEvent>): (out: (Selector, TimeDetails))
    requires forall i | 0 <= i < |events| :: events[i].PickDuration? ==> events[i].choice < |Durations()|
    decreases |events|
  {
    if |events| == 0 then (s, t)
    else
      var next := match events[0]
        case PickDuration(choice) => ChangeDuration(s, Durations()[choice], pricePerHour)
        case PickStart(start) => ChangeStart(s, start, pricePerHour);
      Run(next.0, next.1, pricePerHour, events[1..])
  }

  /**
   * From mounting on, whatever buttons and start times are picked, the
   * duration stays one of the offered 1..6 hours and the last report
   * agrees with the displayed selection and total.
   */
  lemma {:induction false} RunKeepsAgreement(s: Selector, t: TimeDetails, pricePerHour: int, events: seq<PickerEvent>)
    requires forall i | 0 <= i < |events| :: events[i].PickDuration? ==> events[i].choice < |Durations()|
    requires 1 <= s.duration <= 6 && Agrees(s, pricePerHour, t)
    ensures 1 <= Run(s, t, pricePerHour, events).0.duration <= 6
    ensures Agrees(Run(s, t, pricePerHour, events).0, pricePerHour, Run(s, t, pricePerHour, events).1)
    decreases |events|
  {
    if |events| > 0 {
      var next := match events[0]
        case PickDuration(choice) => ChangeDuration(s, Durations()[choice], pricePerHour)
        case PickStart(start) => ChangeStart(s, start, pricePerHour);
      if events[0].PickDuration? {
        assert Durations()[events[0].choice] in Durations();
      }
      RunKeepsAgreement(next.0, next.1, pricePerHour, events[1..]);
    }
  }

  /**
   * Details reported by the picker at a slot's rate are priced as the
   * backend prices a stored reservation of that duration.
   */
  lemma ReportedDetailsPriced(hours: int, start: Ms, pricePerHour: int, r: Reservation)
    requires var t := UpdateTimeSelection(hours, start, pricePerHour);
      && r.startTime == t.startTime && r.endTime == t.endTime
      && r.duration == t.duration && r.totalPrice == t.totalPrice
    ensures PricedAt(r, pricePerHour)
  {
  }
}

=== FILE: wrappers.dfy ===
/** Option and Result values shared by the whole model. */
module Wrappers {

  /** An optional value: JavaScript's null/undefined versus a present value. */
  datatype Option<+T> = None | Some(value: T)

  /** Either a value or a failure. */
  datatype Result<+T, +E> = Ok(value: T) | Err(error: E)
}
